=== FILE: README.md ===
# tiddly in Dafny

A model of the two sequential cores of `tiddly`, a TiddlyWiki backend written
in Go for App Engine, with proofs of what they promise.

- **The revisioned tiddler store** (`tiddly.go`). Every title has a current
  record (`Tiddler`: revision, JSON metadata, body, tags). Every write also
  stores a copy under `title#revision` in a history. The model covers:
  - `putTiddler`, which injects `bag` and `revision`, splits `text` out into
    the body, and writes the current and the history record;
  - `deleteTiddler`, which writes a tombstone;
  - `getTiddler`, which merges the body back into the metadata;
  - `tiddlerList`, which lists every record, skips tombstones and inlines the
    bodies of macro tiddlers;
  - the `tiddler` method switch.

  Each handler is a total function from the store and the request to the new
  store and a reply. A failing datastore call is an input, so the partial
  writes a handler can leave behind are part of the model.
- **The git mirror** (`gitbackup/gitbackup.go`). Each run renders every
  stored record as a `.tid` file: sorted `key: value` lines, a blank line,
  then the body. The run rebuilds the `tiddlers/` directory from scratch, then
  stages, checks the status, commits and pushes. The clone is reduced to:
  - the directory in the work tree;
  - the tree of the last commit;
  - the tree last pushed;
  - a commit counter.

  Failing go-git calls are inputs.

Supporting modules:
- `Strings`: Go's byte-wise string order, a sort of a key set into that order
  (`sort.Strings` over map keys), `strings.Join`, `strings.Contains`, and the
  decimal rendering of an `int` (`fmt.Sprint`) with its inverse.
- `Json`: JSON values with an encoder standing for `json.Marshal`, a decoder
  standing for `json.Unmarshal`, and Go's `%v` rendering of a decoded value.
  The decoder provably inverts the encoder.

Two further modules build on these:
- `Lineage` follows the history across any sequence of requests.
- `Scenario` walks one tiddler through put, mirror, delete and mirror.

The handlers and the mirror answer as follows:
- A PUT body that is not JSON is answered with 500 (`tiddly.go:253-256`).
- A wrong method is answered with 405 (`tiddly.go:210-211`, `tiddly.go:302-305`).
- The mirror clones once at start-up and never pulls before a run
  (`gitbackup/gitbackup.go:139-142`).
- The file name comes from the `title` field of the metadata, not from the
  datastore key (`gitbackup/gitbackup.go:244`).
- Removals are staged: `RemoveGlob` at `gitbackup/gitbackup.go:179` drops every
  tiddler from the index before the rebuild, so a commit records the work tree
  as it is, removed files included (`Mirror.GitCommit`).
- Removing the last tiddler never reaches the mirror: the run empties
  `tiddlers/`, and staging an empty directory fails (see
  `Mirror.EmptyTreeNotCommitted`).
- A failed push is not retried by the next run over an unchanged store. That
  run finds the work tree clean and stops before pushing (see
  `Mirror.FailedPushNotRetried`), so the mirror does not heal itself.

## Model

| member | source | states |
|---|---|---|
| Store.StoredFields | tiddly.go:259-280 | The stored metadata has the caller's keys without `text`, plus `bag` and `revision`. `bag` is `"bag"` and `revision` is the new revision. Every other caller key keeps its value. |
| Store.WriteRecord | tiddly.go:281-291 | The current record is written first, then the history record. A failed first write changes nothing. A failed second write leaves the new current record with no history entry. Success returns the revision, and the history gains the same record under `title#rev`. |
| Store.PutTiddler | tiddly.go:240-295 | A put succeeds exactly when the caller is admin, the body parses as an object and both writes succeed. A non-admin caller gets 403. Bad JSON gets 500 and `null` panics, and neither changes the store. When the read succeeds, the revision is 1 for a new title and the old revision + 1 otherwise. The history gets the same record. Once the current write succeeds, the title holds the new record even if the history write then fails, and a failed history write leaves the history as it was. Other titles are untouched. |
| Store.PutTiddlerStrict | tiddly.go:261-265 | Corrected put: a failed read of the current record is an error that leaves the store unchanged. Otherwise it behaves exactly like the put as written. A successful revision is always the old revision + 1, or 1 for a new title. |
| Store.DeleteTiddler | tiddly.go:297-325 | A delete succeeds exactly when the caller is admin, the method is DELETE, the read succeeds, the record exists and both writes succeed. A failed read or a missing record gets a lookup failure and leaves the store unchanged. A failed first write leaves the store unchanged. A failed history write still leaves the tombstone as the current record and never touches the history. Success writes revision + 1 with metadata and body cleared and tags kept, to both the current and the history key. Other titles are untouched. |
| Store.GetTiddler | tiddly.go:215-229 | A failed read and a missing record are both answered with a lookup failure. Success needs a successful read of an existing record. The nil-map panic happens only for the metadata `null`. |
| Store.HandleTiddler | tiddly.go:204-213 | GET and other methods leave the store as it was. Methods other than GET and PUT get 405. GET answers exactly as get does, with get's text. PUT has the store, the success and the revision of the put as written. |
| Store.HandleStatus | tiddly.go:204-213 | Through the switch, a method other than GET and PUT is answered 405 and a PUT by a non-admin 403. The nil-map panic has no status. Every other failure of a GET, or of an admin's PUT, is answered 500. |
| Store.HandleTiddlerStrict | tiddly.go:204-213 | The switch with the corrected put. It agrees with the switch as written on every request without a read fault, and on every GET. A PUT with a read fault leaves the store unchanged. |
| Store.HandlePutThenGet | tiddly.go:204-237 | Through the switch, a PUT answers with the next revision, and a GET after it answers with the caller's fields, `bag` and `revision` injected and the body under `text`. |
| Store.HandleReadFault | tiddly.go:261-265 | A PUT of an existing title with a failed read: the switch as written answers with revision 1, the corrected one with a lookup failure and no write. |
| Store.ListEntries | tiddly.go:171-196 | The listing has at most one entry per scanned record; `Store.ListEntriesInOrder` states which entries, in which order. |
| Store.ListedPositions | tiddly.go:160-196 | The positions of the records that give an entry: strictly increasing, each giving an entry, and every record that gives one is among them. |
| Store.ListEntriesInOrder | tiddly.go:160-198 | The listing holds, in scan order, exactly the entries of the records at those positions: one per record that gives an entry, and nothing else. |
| Store.ListTiddlers | tiddly.go:160-170 | An iterator error mid-scan fails the listing with 500. A scan that ends normally is always answered. |
| Store.HistoryKeyInjective | tiddly.go:287 | Distinct (title, revision) pairs have distinct history keys, because the decimal revision never contains `#`. |
| Store.PutStores | tiddly.go:259-280 | The record a put stores has metadata that parses back to the caller's fields with `bag` and `revision` overwritten and `text` removed. Its revision is the new one, its body is the caller's string `text` or `""`, and it has no tags. |
| Store.PutWritesHistory | tiddly.go:281-291 | After a successful put, the history entry at the new revision equals the current record. |
| Store.PutHistoryGap | tiddly.go:281-291 | When only the history write fails, the reply is an error, yet the new current record stands with no history entry for its revision, and the history is unchanged. |
| Store.GetReturns | tiddly.go:215-237 | Get succeeds exactly when the read succeeds, the record exists and its metadata parses as an object. It returns that object with `text` set to the body. A tombstone is refused as bad JSON. |
| Store.GetAfterPut | tiddly.go:259-280 | Get after a successful put returns the caller's fields, with `bag` and `revision` injected and the body under `text`. |
| Store.DeleteHistoryGap | tiddly.go:313-325 | When only the history write of a delete fails, the reply is an error, yet the tombstone stands as the current record with no history entry for its revision. |
| Store.DeletedIsHidden | tiddly.go:313-315 | A tombstone is skipped by the listing and refused by get. |
| Store.PutAfterDelete | tiddly.go:261-268 | A put after a delete gets the tombstone's revision + 1, so the original revision + 2, and an empty tag list. |
| Store.MacroMetaNotNull | tiddly.go:181-187 | Metadata that contains the macro marker never unmarshals into a nil map, so the listing cannot panic there. |
| Store.ListEntryCases | tiddly.go:171-197 | Empty metadata is skipped. Non-macro metadata is emitted verbatim. Macro metadata is emitted exactly when it parses, and then as the object with `text` set to the body. |
| Store.MarkerIsQuotedTag | tiddly.go:181 | The marker the listing searches for is the JSON encoding of the tag `$:/tags/Macro`. |
| Store.MacroTagIsMarked | tiddly.go:181 | Metadata that encodes an object whose `tags` array holds `$:/tags/Macro` contains the marker. |
| Store.MacroListedWithBody | tiddly.go:181-192 | A record tagged as a macro is listed with its body inlined under `text`. |
| Store.PutKeepsWellFormed | tiddly.go:268-280 | Put, as written or corrected, keeps every stored record a tombstone or the encoding of an object without `text`. |
| Store.DeleteKeepsWellFormed | tiddly.go:313-315 | Delete keeps every stored record a tombstone or the encoding of an object without `text`. |
| Store.ListedValuesMembers | tiddly.go:160-198 | The values in the listing are exactly the listed values of the scanned records. |
| Store.ListedValueShape | tiddly.go:171-197 | A well-stored record is listed exactly when it is not a tombstone. It is listed as an object that has `text` exactly when it is a macro, and then `text` is its body. |
| Store.ListingDecodes | tiddly.go:157-199 | The listing of well-stored records decodes to the JSON array of their listed values, in scan order. |
| Store.ListingOfStore | tiddly.go:149-202 | A full scan of a well-formed store, returning each current record once under its own key, lists successfully. The listing holds a value for every record that is not a tombstone, and nothing else. |
| Json.DecodeEncode | tiddly.go:275-280 | Decoding the encoding of any value gives back the value. |
| Json.UnmarshalEncoded | tiddly.go:224-229 | Unmarshalling the encoding of an object gives back its members. |
| Json.UnmarshalNull | tiddly.go:252-259 | A text unmarshals into a nil map exactly when it is `null`. |
| Json.UnmarshalEmpty | tiddly.go:224-229 | Empty metadata does not unmarshal. |
| Json.UnmarshalRefuses | tiddly.go:252-256 | A raw tab inside a string and a number with a leading zero are malformed, as `json.Unmarshal` finds them, so such a PUT body is refused. |
| Json.RawControlRefused | tiddly.go:252-256 | A string with a raw character below a space before its closing quote is refused, whatever plain text precedes it and whatever follows. |
| Json.LeadingZeroRefused | tiddly.go:252-256 | Any number whose digits start with `0` and another digit is refused, with or without a minus sign. |
| Json.EscapeHex | tiddly.go:275-280 | U+0001, `<` and U+2028 are written as `\u` escapes with four lower-case hex digits, as `json.Marshal` writes them. |
| Json.HexEscaped | tiddly.go:275-280 | Any character is written as a six-character escape exactly when it needs a `\u` escape; then the escape is `\u` and four lower-case hex digits that read back to the character's code. |
| Json.EscapePrintable | tiddly.go:275-280 | The escaped form of any text holds no raw character below a space. |
| Strings.SortedKeys | gitbackup/gitbackup.go:217-222 | Each key appears exactly once, in strictly ascending byte order. |
| Strings.SortedKeysCanonical | gitbackup/gitbackup.go:217-222 | Any strictly ascending arrangement of the keys equals the sorted keys, so the order of map iteration does not matter. |
| Strings.DecimalRoundTrip | tiddly.go:287 | Reading back the decimal rendering of an integer gives the integer. |
| Strings.DecimalInjective | tiddly.go:287 | Distinct revisions render differently. |
| Strings.DecimalAlphabet | tiddly.go:287 | A rendered integer consists only of digits and a minus sign. |
| Mirror.TagWords | gitbackup/gitbackup.go:226-235 | The words exist exactly when every tag is a string, and they are the tags' strings in order. |
| Mirror.TidFields | gitbackup/gitbackup.go:224-239 | The header fields exist exactly when no key makes the loop panic. |
| Mirror.TidFieldsMembers | gitbackup/gitbackup.go:224-239 | The header fields are exactly the keys that produce a line, each paired with its text. |
| Mirror.TidFieldsSorted | gitbackup/gitbackup.go:217-224 | For keys in ascending order, the header lines are in strictly ascending key order. |
| Mirror.OnlyTagsPanic | gitbackup/gitbackup.go:224-237 | The loop panics exactly when `tags` is not an array of strings. An empty array only drops the line. |
| Mirror.RenderOutcome | gitbackup/gitbackup.go:204-244 | A record is skipped exactly when its metadata is empty or does not parse. It crashes the run exactly when its `tags` is bad. `null` metadata gives `<nil>.tid` holding a blank line and the body. |
| Mirror.NilMapFile | gitbackup/gitbackup.go:209-244 | Metadata `null` renders to `<nil>.tid` with no header lines. |
| Mirror.ParseFormatted | gitbackup/gitbackup.go:238-243 | A `.tid` text reads back to the header fields and the body it was written from, for any body, when no key holds `:` or a line break and no value holds a line break. |
| Mirror.RenderedFile | gitbackup/gitbackup.go:208-244 | A rendered file is named after the `title` field. When no key holds `:` or a line break and no field text holds a line break, it reads back as one line per key that has one, in strictly ascending key order with each key's text, followed by the body verbatim. |
| Mirror.WriteFiles | gitbackup/gitbackup.go:193-245 | The loop panics exactly when some scanned record crashes the render. |
| Mirror.WrittenNames | gitbackup/gitbackup.go:193-245 | After a loop without a panic, the directory holds the earlier names plus the names of the rendered records, and nothing else. |
| Mirror.LastWriteWins | gitbackup/gitbackup.go:244 | Each file holds the content of the last record rendered to its name. |
| Mirror.KeptWhenNotWritten | gitbackup/gitbackup.go:244 | A file that no later record writes keeps its content. |
| Mirror.GitCommit | gitbackup/gitbackup.go:75-121 | Staging fails when the call fails or the directory is empty, and then nothing changes. A commit happens exactly when staging and status succeed, the work tree differs from the last commit and the commit succeeds. The push lands exactly when, in addition, the lookup and the push succeed. A failed push implies a commit. A clean status changes nothing. |
| Mirror.MirrorRun | gitbackup/gitbackup.go:160-250 | A method other than GET gets 405. A failure to clear the directory gets 500. The reply is OK exactly when the directory was cleared, no render panicked and the scan ended normally, whatever git did. A reply other than OK makes no commit or push. After OK the directory is the rendered tree. |
| Mirror.RunRebuildsTree | gitbackup/gitbackup.go:178-191 | After a successful run the directory holds exactly the files of this scan's rendered records, whatever it held before. |
| Mirror.OkDespiteGitErrors | gitbackup/gitbackup.go:247-249 | The reply of a run does not depend on the outcome of the commit. |
| Mirror.NoCommitAfterCommit | gitbackup/gitbackup.go:86-89 | After a run that commits, a second run over the same scan makes no commit and changes neither the last commit nor the remote. |
| Mirror.NoCommitWhenClean | gitbackup/gitbackup.go:81-89 | A run whose rendered tree equals the last commit makes no commit and no push. |
| Mirror.AtMostOneCommit | gitbackup/gitbackup.go:86-101 | Two runs over an unchanged scan make at most one commit between them, whatever fails. |
| Mirror.FailedPushNotRetried | gitbackup/gitbackup.go:86-117 | After a commit whose push failed, the next run over the same scan leaves the remote behind the last commit. |
| Mirror.EmptyTreeNotCommitted | gitbackup/gitbackup.go:75-79 | A run over a scan that renders no file makes no commit and no push, so removing the last tiddler never reaches the mirror. |
| Lineage.ApplyKeepsBounded | tiddly.go:261-291 | Any corrected put or delete, under any faults, keeps every history entry within its title's revisions and changes no existing entry. |
| Lineage.ReplayAppendOnly | tiddly.go:240-325 | With the corrected put, every sequence of puts and deletes under any faults keeps the history append-only. |
| Lineage.WriteKeepsComplete | tiddly.go:281-291 | A fault-free write of the next revision keeps revisions 1 to current in the history, the latest equal to the current record. |
| Lineage.ApplyKeepsComplete | tiddly.go:240-325 | A fault-free put or delete keeps the lineage complete. |
| Lineage.ReplayComplete | tiddly.go:240-325 | A fault-free sequence of requests keeps every revision of every title in the history. |
| Lineage.ReplayFromEmpty | tiddly.go:240-325 | From the empty datastore, any sequence of requests under any faults keeps the history within each title's revisions. A fault-free sequence keeps every revision of every title. |
| Lineage.ResetOverwritesHistory | tiddly.go:261-265 | As written, a failed read on an existing title at revision 5 gives revision 1 and overwrites the history entry `A#1`. |
| Lineage.StrictRefusesReset | tiddly.go:261-265 | The corrected put refuses that request and leaves the store unchanged. |
| Scenario.TagsRendered | gitbackup/gitbackup.go:225-237 | The tags `["x","y"]` render as `x y`. |
| Scenario.AlphaMirrored | gitbackup/gitbackup.go:75-250 | Put `Alpha`, mirror, delete and mirror again: the first run commits and pushes `Alpha.tid` with its exact text. The delete gives revision 2. The second run empties the directory, but staging finds no file, so the last commit and the remote keep `Alpha.tid`. |

## Left out

- Numbers are integers. Go decodes JSON numbers to `float64`, and `%v` prints large or fractional ones in exponent or decimal form; the model prints every number as an integer.
- Json.Decode: accepts no whitespace between tokens, and no fraction or exponent in a number. Go accepts both, so such bodies are `Malformed` here. Nesting depth is not limited; Go stops at 10000 levels.
- Json.Encode: writes backspace and form feed as `\b` and `\f`, as `json.Marshal` does from Go 1.22 on; older releases write `\u0008` and `\u000c`. Invalid UTF-8 does not arise, because a string here is a sequence of characters.
- Authentication is a boolean `admin` input. `mustBeAdmin`, `authCheck`, `auth`, `status`, `index` of `tiddly.go` and `googleiap.go` are App Engine user APIs, HTTP plumbing or crypto.
- The URL path trimming that produces the title, and the error when reading the request body (400), are HTTP plumbing. The title and the body are inputs.
- The Etag of a put (MD5 of the body and `url.QueryEscape`) is library internals and is not part of any reply here.
- The mutex around a mirror run and the read-then-write race in put are concurrency. Every handler and run is atomic and sequential.
- Datastore query order is not modelled. A scan is an input sequence with a flag for an iterator error.
- go-git's clone, `AddGlob`, `RemoveGlob`, `Status`, `Commit` and `Push` are reduced to the trees they compare and update, and each failure is an input flag. Clone and its failure in `main` happen before any run.
- A `RemoveGlob` or `MkdirAll` failure is one flag that leaves the repository unchanged. A partial removal is not modelled.
- File writes never fail: the source ignores their error (`gitbackup/gitbackup.go:244`). Path semantics are not modelled: a title containing `/` names a file like any other. TiddlyWiki's system tiddlers (`$:/…`) have such titles; the program's `WriteFile` fails on them and the error is dropped, so they never reach the mirror, while the model's tree (`Mirror.RunRebuildsTree`) holds them.
- Integer width: revisions are unbounded. The 64-bit overflow of `Rev + 1` is not modelled.
- Store.GetTiddler: its own contract states the failure cases. What a successful get returns is stated by `Store.GetReturns`.
- Mirror.GitCommit: what go-git's `Commit` does with a tree equal to its parent differs between go-git v5 releases; the model never reaches that case, because a clean status stops the run first.
- Mirror.ParseFormatted, Mirror.RenderedFile: the read-back is proved only for keys without `:` or line break and values without line break. The program writes such fields unescaped, so a file holding them does not read back to its fields.

## Findings

| source | as written | input that shows it | evidently intended | confidence | as-written member | corrected member |
|---|---|---|---|---|---|---|
| tiddly.go:261-265 | Any error from reading the current record, not only "no such entity", is taken as "no record". The put then restarts at revision 1 and overwrites the history entry `title#1`. | A put of `A` while `A` is at revision 5 and the read fails transiently. | Only a missing record should restart at 1; any other read error should fail the put with 500. The history then stays append-only. | not executed | Store.PutTiddler, Store.HandleTiddler, Lineage.ResetOverwritesHistory | Store.PutTiddlerStrict, Store.HandleTiddlerStrict, Lineage.ReplayAppendOnly |

=== FILE: json.dfy ===
/**
 The JSON values the handlers decode into `map[string]interface{}`, an
 encoder standing for `json.Marshal`, a decoder standing for
 `json.Unmarshal`, and Go's `%v` rendering of a decoded value.

 The encoder writes object members in ascending key order, as
 `json.Marshal` does for a Go map, and the decoder reads back exactly what the
 encoder writes (`DecodeEncode`). Numbers are integers here (Go decodes them
 as `float64`).
 */
module Json {

  import opened Wrappers
  import opened Strings

  datatype Value =
    | Null
    | Bool(b: bool)
    | Num(n: int)
    | Str(s: string)
    | Arr(items: seq<Value>)
    | Obj(fields: map<string, Value>)

  /* ---------------------------------------------------------------------- */
  /* Encoding                                                                */
  /* ---------------------------------------------------------------------- */

  /** The characters `json.Marshal` writes as a backslash and a letter, and
      that letter. */
  function EscapeLetter(c: char): Option<char> {
    if c == '"' then Some('"')
    else if c == '\\' then Some('\\')
    else if c == '\n' then Some('n')
    else if c == '\r' then Some('r')
    else if c == '\t' then Some('t')
    else if c as int == 0x08 then Some('b')
    else if c as int == 0x0C then Some('f')
    else None
  }

  /** The characters `json.Marshal` writes as `\u` and four hex digits: the
      other control characters, the HTML-sensitive `<`, `>` and `&`, and the
      line and paragraph separators U+2028 and U+2029. */
  predicate NeedsHexEscape(c: char) {
    && EscapeLetter(c).None?
    && (c < ' ' || c == '<' || c == '>' || c == '&' || c as int == 0x2028 || c as int == 0x2029)
  }

  /** The character a letter after a backslash stands for (`u` is read
      separately). */
  function Unescape(c: char): Option<char> {
    if c == '"' then Some('"')
    else if c == '\\' then Some('\\')
    else if c == '/' then Some('/')
    else if c == 'n' then Some('\n')
    else if c == 'r' then Some('\r')
    else if c == 't' then Some('\t')
    else if c == 'b' then Some(0x08 as char)
    else if c == 'f' then Some(0x0C as char)
    else None
  }

  /** A lower-case hex digit, as `json.Marshal` writes them. */
  function HexDigit(d: nat): (c: char)
    requires d < 16
    ensures HexValue(c) == Some(d)
  {
    if d < 10 then ('0' as int + d) as char else ('a' as int + d - 10) as char
  }

  /** The value of a hex digit of either case. */
  function HexValue(c: char): (r: Option<nat>)
    ensures r.Some? ==> r.value < 16
  {
    if '0' <= c <= '9' then Some((c - '0') as nat)
    else if 'a' <= c <= 'f' then Some((c - 'a') as nat + 10)
    else if 'A' <= c <= 'F' then Some((c - 'A') as nat + 10)
    else None
  }

  /** The four hex digits of a code unit, most significant first. */
  function HexQuad(n: nat): (r: string)
    requires n < 0x10000
    ensures |r| == 4
  {
    var d3 := n % 16;
    var n1 := n / 16;
    var d2 := n1 % 16;
    var n2 := n1 / 16;
    [HexDigit(n2 / 16), HexDigit(n2 % 16), HexDigit(d2), HexDigit(d3)]
  }

  /** The code unit written by four hex digits at the front of `s`. */
  function ReadHexQuad(s: string): (r: Option<nat>)
    ensures r.Some? ==> |s| >= 4 && r.value < 0x10000
  {
    if |s| < 4 then None
    else
      match (HexValue(s[0]), HexValue(s[1]), HexValue(s[2]), HexValue(s[3]))
      case (Some(a), Some(b), Some(c), Some(d)) => Some(((a * 16 + b) * 16 + c) * 16 + d)
      case _ => None
  }

  /** One character as written inside a JSON string literal. */
  function EscapeChar(c: char): string {
    match EscapeLetter(c)
    case Some(e) => ['\\', e]
    case None => if NeedsHexEscape(c) then "\\u" + HexQuad(c as int) else [c]
  }

  function Escape(s: string): string
    decreases |s|
  {
    if |s| == 0 then "" else EscapeChar(s[0]) + Escape(s[1..])
  }

  /** A JSON string literal. */
  function Quote(s: string): string {
    "\"" + Escape(s) + "\""
  }

  function Encode(v: Value): string
    decreases v, 1
  {
    match v
    case Null => "null"
    case Bool(b) => if b then "true" else "false"
    case Num(n) => Decimal(n)
    case Str(s) => Quote(s)
    case Arr(items) => "[" + Join(EncodeAll(items, v), ",") + "]"
    case Obj(m) => "{" + Join(EncodeMembers(SortedKeys(m.Keys), m, v), ",") + "}"
  }

  /** The encodings of the elements of an array, in order. */
  function EncodeAll(items: seq<Value>, ghost parent: Value): (r: seq<string>)
    requires forall i :: 0 <= i < |items| ==> items[i] < parent
    ensures |r| == |items|
    ensures forall i :: 0 <= i < |items| ==> r[i] == Encode(items[i])
    decreases parent, 0, |items|
  {
    if |items| == 0 then [] else [Encode(items[0])] + EncodeAll(items[1..], parent)
  }

  /** The `"key":value` members of an object, in the order of `keys`. */
  function EncodeMembers(keys: seq<string>, m: map<string, Value>, ghost parent: Value): (r: seq<string>)
    requires forall i :: 0 <= i < |keys| ==> keys[i] in m && m[keys[i]] < parent
    ensures |r| == |keys|
    ensures forall i :: 0 <= i < |keys| ==> r[i] == Quote(keys[i]) + ":" + Encode(m[keys[i]])
    decreases parent, 0, |keys|
  {
    if |keys| == 0 then []
    else [Quote(keys[0]) + ":" + Encode(m[keys[0]])] + EncodeMembers(keys[1..], m, parent)
  }

  /* ---------------------------------------------------------------------- */
  /* Decoding                                                                */
  /* ---------------------------------------------------------------------- */

  /** The number of digits at the front of `s`. */
  function DigitRun(s: string): (n: nat)
    ensures n <= |s|
    ensures AllDigits(s[..n])
    ensures n == |s| || !IsDigit(s[n])
    decreases |s|
  {
    if |s| > 0 && IsDigit(s[0]) then
      var n := 1 + DigitRun(s[1..]);
      assert s[..n] == [s[0]] + s[1..][..n - 1];
      n
    else 0
  }

  /** An integer: an optional minus sign and a non-empty run of digits
      without a leading zero. */
  function ParseNumber(s: string): (r: Option<(Value, string)>)
    ensures r.Some? ==> |r.value.1| < |s| && r.value.0.Num?
  {
    var neg := |s| > 0 && s[0] == '-';
    var body := if neg then s[1..] else s;
    var n := DigitRun(body);
    if n == 0 || (n > 1 && body[0] == '0') then None
    else
      var magnitude := DigitsValue(body[..n]) as int;
      Some((Num(if neg then -magnitude else magnitude), body[n..]))
  }

  /** A fixed keyword (`null`, `true`, `false`). */
  function Literal(s: string, word: string, v: Value): (r: Option<(Value, string)>)
    requires |word| > 0
    ensures r.Some? ==> |r.value.1| < |s|
    ensures r.Some? <==> |s| >= |word| && s[..|word|] == word
    ensures r.Some? ==> r.value == (v, s[|word|..])
  {
    if |s| >= |word| && s[..|word|] == word then Some((v, s[|word|..])) else None
  }

  /** A surrogate code unit, which UTF-16 uses in pairs. */
  predicate IsSurrogate(u: nat) {
    0xD800 <= u < 0xE000
  }

  /** The escape after a backslash: a letter, or `u` and four hex digits. A
      high surrogate followed by an escaped low one stands for the character
      they encode together; any other surrogate stands for U+FFFD, as in Go. */
  function ParseEscape(s: string): (r: Option<(char, string)>)
    ensures r.Some? ==> |r.value.1| < |s|
  {
    if |s| == 0 then None
    else if s[0] != 'u' then
      match Unescape(s[0])
      case None => None
      case Some(c) => Some((c, s[1..]))
    else
      match ReadHexQuad(s[1..])
      case None => None
      case Some(u) =>
        if !IsSurrogate(u) then Some((u as char, s[5..]))
        else if u < 0xDC00 && |s| >= 7 && s[5] == '\\' && s[6] == 'u'
                && ReadHexQuad(s[7..]).Some? && 0xDC00 <= ReadHexQuad(s[7..]).value < 0xE000 then
          var low := ReadHexQuad(s[7..]).value;
          Some(((0x10000 + (u - 0xD800) * 0x400 + (low - 0xDC00)) as char, s[11..]))
        else Some((0xFFFD as char, s[5..]))
  }

  /** The body of a string literal after its opening quote, up to and
      including the closing quote; a raw control character is an error. */
  function ParseString(s: string): (r: Option<(string, string)>)
    ensures r.Some? ==> |r.value.1| < |s|
    decreases |s|
  {
    if |s| == 0 then None
    else if s[0] == '"' then Some(([], s[1..]))
    else if s[0] < ' ' then None
    else if s[0] == '\\' then
      match ParseEscape(s[1..])
      case None => None
      case Some((c, after)) =>
        match ParseString(after)
        case None => None
        case Some((body, rest)) => Some(([c] + body, rest))
    else
      match ParseString(s[1..])
      case None => None
      case Some((body, rest)) => Some(([s[0]] + body, rest))
  }

  /** One value at the front of `s`, and what follows it. */
  function ParseValue(s: string): (r: Option<(Value, string)>)
    ensures r.Some? ==> |r.value.1| < |s|
    decreases |s|, 0
  {
    if |s| == 0 then None
    else if s[0] == 'n' then Literal(s, "null", Null)
    else if s[0] == 't' then Literal(s, "true", Bool(true))
    else if s[0] == 'f' then Literal(s, "false", Bool(false))
    else if s[0] == '"' then
      match ParseString(s[1..])
      case None => None
      case Some((t, rest)) => Some((Str(t), rest))
    else if s[0] == '[' then
      if |s| >= 2 && s[1] == ']' then Some((Arr([]), s[2..])) else ParseItems(s[1..], [])
    else if s[0] == '{' then
      if |s| >= 2 && s[1] == '}' then Some((Obj(map[]), s[2..])) else ParseMembers(s[1..], map[])
    else ParseNumber(s)
  }

  /** The elements of a non-empty array after its `[`, up to and including
      the closing `]`; `acc` holds the elements already read. */
  function ParseItems(s: string, acc: seq<Value>): (r: Option<(Value, string)>)
    ensures r.Some? ==> |r.value.1| < |s| && r.value.0.Arr?
    decreases |s|, 1
  {
    match ParseValue(s)
    case None => None
    case Some((v, rest)) =>
      if |rest| > 0 && rest[0] == ',' then ParseItems(rest[1..], acc + [v])
      else if |rest| > 0 && rest[0] == ']' then Some((Arr(acc + [v]), rest[1..]))
      else None
  }

  /** The members of a non-empty object after its `{`, up to and including
      the closing `}`; a later duplicate key replaces an earlier one, as it
      does when Go decodes into a map. */
  function ParseMembers(s: string, acc: map<string, Value>): (r: Option<(Value, string)>)
    ensures r.Some? ==> |r.value.1| < |s| && r.value.0.Obj?
    decreases |s|, 1
  {
    if |s| == 0 || s[0] != '"' then None
    else
      match ParseString(s[1..])
      case None => None
      case Some((k, rest)) =>
        if |rest| == 0 || rest[0] != ':' then None
        else
          match ParseValue(rest[1..])
          case None => None
          case Some((v, rest2)) =>
            if |rest2| > 0 && rest2[0] == ',' then ParseMembers(rest2[1..], acc[k := v])
            else if |rest2| > 0 && rest2[0] == '}' then Some((Obj(acc[k := v]), rest2[1..]))
            else None
  }

  /** A whole text holding exactly one value. */
  function Decode(s: string): Option<Value> {
    match ParseValue(s)
    case None => None
    case Some((v, rest)) => if |rest| == 0 then Some(v) else None
  }

  /** The outcome of `json.Unmarshal(data, &js)` with `js` a
      `map[string]interface{}`: an error, a nil map (the text `null`), or the
      members of an object. */
  datatype Unmarshalled = Malformed | NilMap | Fields(fields: map<string, Value>)

  function UnmarshalObject(s: string): Unmarshalled {
    match Decode(s)
    case Some(Null) => NilMap
    case Some(Obj(m)) => Fields(m)
    case _ => Malformed
  }

  /* ---------------------------------------------------------------------- */
  /* Go's %v rendering of a decoded value                                    */
  /* ---------------------------------------------------------------------- */

  /** `fmt.Sprintf("%v", v)` for a value decoded from JSON: strings bare,
      `<nil>` for null, `[a b]` for arrays and `map[k:v ...]` (keys sorted)
      for objects. */
  function Show(v: Value): string
    decreases v, 1
  {
    match v
    case Null => "<nil>"
    case Bool(b) => if b then "true" else "false"
    case Num(n) => Decimal(n)
    case Str(s) => s
    case Arr(items) => "[" + Join(ShowAll(items, v), " ") + "]"
    case Obj(m) => "map[" + Join(ShowMembers(SortedKeys(m.Keys), m, v), " ") + "]"
  }

  function ShowAll(items: seq<Value>, ghost parent: Value): (r: seq<string>)
    requires forall i :: 0 <= i < |items| ==> items[i] < parent
    decreases parent, 0, |items|
  {
    if |items| == 0 then [] else [Show(items[0])] + ShowAll(items[1..], parent)
  }

  function ShowMembers(keys: seq<string>, m: map<string, Value>, ghost parent: Value): (r: seq<string>)
    requires forall i :: 0 <= i < |keys| ==> keys[i] in m && m[keys[i]] < parent
    decreases parent, 0, |keys|
  {
    if |keys| == 0 then []
    else [keys[0] + ":" + Show(m[keys[0]])] + ShowMembers(keys[1..], m, parent)
  }

  /* ---------------------------------------------------------------------- */
  /* The decoder inverts the encoder                                         */
  /* ---------------------------------------------------------------------- */

  /** What may follow a value inside an encoding: nothing, or a separator or
      closing bracket. */
  predicate Delimited(rest: string) {
    |rest| == 0 || rest[0] == ',' || rest[0] == ']' || rest[0] == '}'
  }

  lemma ParseEscaped(t: string, rest: string)
    ensures ParseString(Escape(t) + "\"" + rest) == Some((t, rest))
  {
    ParseEscapedBody(t, "\"" + rest, rest);
    Regroup3(Escape(t), "\"", rest);
  }

  lemma {:induction false} ParseEscapedBody(t: string, q: string, rest: string)
    requires q == "\"" + rest
    ensures ParseString(Escape(t) + q) == Some((t, rest))
    decreases |t|
  {
    if |t| == 0 {
      assert Escape(t) + q == q;
    } else {
      var tail := Escape(t[1..]) + q;
      ParseEscapedBody(t[1..], q, rest);
      EscapeFront(t, q);
      ParseEscapedChar(t[0], tail, t[1..], rest);
      assert [t[0]] + t[1..] == t;
    }
  }

  /** Escaping works one character at a time from the front. */
  lemma EscapeFront(t: string, suffix: string)
    requires |t| > 0
    ensures Escape(t) + suffix == EscapeChar(t[0]) + (Escape(t[1..]) + suffix)
  {
  }

  /** One escaped character in front of a string body reads back as itself. */
  lemma ParseEscapedChar(c: char, tail: string, body: string, rest: string)
    requires ParseString(tail) == Some((body, rest))
    ensures ParseString(EscapeChar(c) + tail) == Some(([c] + body, rest))
  {
    var s := EscapeChar(c) + tail;
    match EscapeLetter(c)
    case Some(e) =>
      assert s[1..] == [e] + tail;
      assert ParseEscape(s[1..]) == Some((c, tail)) by {
        assert ([e] + tail)[1..] == tail;
      }
    case None =>
      if NeedsHexEscape(c) {
        var q := HexQuad(c as int);
        assert s[1..] == "u" + (q + tail);
        ParseHexEscape(c, q + tail, tail);
      } else {
        assert s[1..] == tail;
      }
  }

  /** A `u` escape written for a character reads back as that character. */
  lemma ParseHexEscape(c: char, qt: string, tail: string)
    requires NeedsHexEscape(c) && qt == HexQuad(c as int) + tail
    ensures ParseEscape("u" + qt) == Some((c, tail))
  {
    HexQuadRead(c as int, tail);
    assert ("u" + qt)[1..] == qt;
    assert ("u" + qt)[5..] == tail;
  }

  /** Four hex digits read back as the code unit they were written from. */
  lemma HexQuadRead(n: nat, tail: string)
    requires n < 0x10000
    ensures ReadHexQuad(HexQuad(n) + tail) == Some(n)
  {
    var s := HexQuad(n) + tail;
    assert s[0] == HexQuad(n)[0] && s[1] == HexQuad(n)[1] && s[2] == HexQuad(n)[2] && s[3] == HexQuad(n)[3];
    var n1 := n / 16;
    var n2 := n1 / 16;
    assert n == n1 * 16 + n % 16;
    assert n1 == n2 * 16 + n1 % 16;
    assert n2 == (n2 / 16) * 16 + n2 % 16;
  }

  lemma {:induction false} DigitRunOfDigits(d: string, rest: string)
    requires AllDigits(d)
    requires |rest| == 0 || !IsDigit(rest[0])
    ensures DigitRun(d + rest) == |d|
    decreases |d|
  {
    if |d| > 0 {
      assert (d + rest)[1..] == d[1..] + rest;
      DigitRunOfDigits(d[1..], rest);
    } else {
      assert d + rest == rest;
    }
  }

  lemma ParseNumberEncoded(n: int, rest: string)
    requires Delimited(rest)
    ensures ParseNumber(Decimal(n) + rest) == Some((Num(n), rest))
  {
    if n < 0 {
      var t := Digits(-n) + rest;
      ParseUnsigned(-n, rest);
      Regroup3("-", Digits(-n), rest);
      ParseNegated(Decimal(n) + rest, t, -n, rest);
    } else {
      ParseUnsigned(n, rest);
    }
  }

  /** A minus sign in front of an unsigned number negates what is read. */
  lemma ParseNegated(s: string, t: string, mag: nat, rest: string)
    requires s == "-" + t
    requires |t| > 0 && t[0] != '-'
    requires ParseNumber(t) == Some((Num(mag), rest))
    ensures ParseNumber(s) == Some((Num(-(mag as int)), rest))
  {
    assert s[1..] == t;
  }

  /** The digits of a number, followed by a text that does not start with a
      digit, are read back as that number. */
  lemma ParseUnsigned(mag: nat, rest: string)
    requires Delimited(rest)
    ensures |Digits(mag)| > 0 && Digits(mag)[0] != '-'
    ensures ParseNumber(Digits(mag) + rest) == Some((Num(mag), rest))
  {
    DigitsRoundTrip(mag);
    DigitsLead(mag);
    var d := Digits(mag);
    assert |rest| == 0 || !IsDigit(rest[0]);
    DigitRunOfDigits(d, rest);
    assert (d + rest)[..|d|] == d;
    assert (d + rest)[|d|..] == rest;
    assert (d + rest)[0] == d[0];
    assert IsDigit(d[0]);
  }

  /** Every encoding is non-empty and never starts with a closing bracket or
      a separator; a number's starts with a sign or a digit. */
  lemma EncodeStart(v: Value)
    ensures |Encode(v)| > 0
    ensures Encode(v)[0] != ']' && Encode(v)[0] != '}' && Encode(v)[0] != ','
    ensures v.Num? ==> Encode(v)[0] == '-' || IsDigit(Encode(v)[0])
  {
    if v.Num? {
      var mag: nat := if v.n < 0 then -v.n else v.n;
      DigitsRoundTrip(mag);
    }
  }

  /** Concatenation regrouped to the right. These steps are separate lemmas
      because asserting them inside the parser proofs sets the solver off
      unfolding the parser on every regrouped text. */
  lemma DropHead(h: string, x: string)
    requires |h| == 1
    ensures |h + x| > 0 && (h + x)[0] == h[0] && (h + x)[1..] == x
  {
  }

  lemma Regroup3(a: string, b: string, c: string)
    ensures a + b + c == a + (b + c)
  {
  }

  lemma Regroup(a: string, b: string, c: string, d: string)
    ensures a + b + c + d == a + (b + c + d)
  {
  }

  /** The first part of a join starts the joined text. */
  lemma JoinStart(parts: seq<string>, sep: string)
    requires |parts| > 0 && |parts[0]| > 0
    ensures |Join(parts, sep)| > 0 && Join(parts, sep)[0] == parts[0][0]
  {
  }

  /** A join of two or more parts, followed by a closing text, is the first
      part, the separator and the join of the others with the closing text. */
  lemma JoinedTail(parts: seq<string>, sep: string, close: string, rest: string)
    requires |parts| > 1
    ensures Join(parts, sep) + close + rest == parts[0] + sep + (Join(parts[1..], sep) + close + rest)
  {
    Regroup(parts[0] + sep, Join(parts[1..], sep), close, rest);
  }

  lemma {:induction false} ParseEncoded(v: Value, rest: string)
    requires Delimited(rest)
    ensures ParseValue(Encode(v) + rest) == Some((v, rest))
    decreases v
  {
    match v
    case Arr(items) =>
      forall i, r | 0 <= i < |items| && Delimited(r)
        ensures ParseValue(Encode(items[i]) + r) == Some((items[i], r))
      {
        ParseEncoded(items[i], r);
      }
      assert ItemsReadBack(items);
      ParseArrayEncoded(items, rest);
    case Obj(m) =>
      forall k, r | k in m && Delimited(r)
        ensures ParseValue(Encode(m[k]) + r) == Some((m[k], r))
      {
        ParseEncoded(m[k], r);
      }
      ParseObjectEncoded(m, rest);
    case _ =>
      ParseScalarEncoded(v, rest);
  }

  lemma ParseScalarEncoded(v: Value, rest: string)
    requires !v.Arr? && !v.Obj?
    requires Delimited(rest)
    ensures ParseValue(Encode(v) + rest) == Some((v, rest))
  {
    match v
    case Null => ParseLiteralEncoded("null", v, rest);
    case Bool(b) => ParseLiteralEncoded(if b then "true" else "false", v, rest);
    case Num(n) => ParseNumEncoded(n, rest);
    case Str(t) => ParseStrEncoded(t, rest);
  }

  lemma ParseLiteralEncoded(word: string, v: Value, rest: string)
    requires (v == Null && word == "null") || (v == Bool(true) && word == "true") || (v == Bool(false) && word == "false")
    ensures Encode(v) == word
    ensures ParseValue(word + rest) == Some((v, rest))
  {
    var s := word + rest;
    assert s[..|word|] == word && s[|word|..] == rest;
  }

  lemma ParseNumEncoded(n: int, rest: string)
    requires Delimited(rest)
    ensures ParseValue(Encode(Num(n)) + rest) == Some((Num(n), rest))
  {
    EncodeStart(Num(n));
    ParseNumberEncoded(n, rest);
  }

  lemma ParseStrEncoded(t: string, rest: string)
    ensures ParseValue(Encode(Str(t)) + rest) == Some((Str(t), rest))
  {
    var s := Encode(Str(t)) + rest;
    assert s == "\"" + (Escape(t) + "\"" + rest);
    assert s[1..] == Escape(t) + "\"" + rest;
    ParseEscaped(t, rest);
  }

  /** Every element of `items` reads back from its encoding, whatever
      delimited text follows it. */
  ghost predicate ItemsReadBack(items: seq<Value>) {
    forall i, r :: 0 <= i < |items| && Delimited(r) ==> ParseValue(Encode(items[i]) + r) == Some((items[i], r))
  }

  /** Each text of `parts` reads back as the value at the same position,
      whatever delimited text follows it. */
  ghost predicate PartsReadBack(parts: seq<string>, vals: seq<Value>) {
    && |parts| == |vals|
    && forall i, r :: 0 <= i < |vals| && Delimited(r) ==> ParseValue(parts[i] + r) == Some((vals[i], r))
  }

  lemma PartsReadBackTail(parts: seq<string>, vals: seq<Value>)
    requires PartsReadBack(parts, vals) && |parts| > 0
    ensures PartsReadBack(parts[1..], vals[1..])
  {
    forall i, r | 0 <= i < |vals| - 1 && Delimited(r)
      ensures ParseValue(parts[1..][i] + r) == Some((vals[1..][i], r))
    {
      assert parts[1..][i] == parts[i + 1] && vals[1..][i] == vals[i + 1];
    }
  }

  lemma PartsReadBackAt(parts: seq<string>, vals: seq<Value>, i: int, r: string)
    requires PartsReadBack(parts, vals) && 0 <= i < |vals| && Delimited(r)
    ensures ParseValue(parts[i] + r) == Some((vals[i], r))
  {
  }

  lemma EncodedItemsReadBack(items: seq<Value>)
    requires ItemsReadBack(items)
    ensures PartsReadBack(EncodeAll(items, Arr(items)), items)
  {
  }

  lemma ParseArrayEncoded(items: seq<Value>, rest: string)
    requires ItemsReadBack(items)
    requires Delimited(rest)
    ensures ParseValue(Encode(Arr(items)) + rest) == Some((Arr(items), rest))
  {
    if |items| == 0 {
      var s := Encode(Arr(items)) + rest;
      assert s[2..] == rest;
    } else {
      var parts := EncodeAll(items, Arr(items));
      ParseArrayOpen(items, rest, parts);
      EncodedItemsReadBack(items);
      ParseItemsJoined(parts, items, [], rest);
      assert [] + items == items;
    }
  }

  /** A non-empty array's encoding is read by the element reader. */
  lemma ParseArrayOpen(items: seq<Value>, rest: string, parts: seq<string>)
    requires |items| > 0
    requires parts == EncodeAll(items, Arr(items))
    ensures ParseValue(Encode(Arr(items)) + rest) == ParseItems(Join(parts, ",") + "]" + rest, [])
  {
    var inner := Join(parts, ",") + "]" + rest;
    assert Encode(Arr(items)) + rest == "[" + inner;
    assert inner[0] != ']' by {
      EncodeStart(items[0]);
      JoinStart(parts, ",");
    }
    ParseOpenBracket(Encode(Arr(items)) + rest, inner);
  }

  /** A `[` not directly followed by `]` hands over to the element reader. */
  lemma ParseOpenBracket(s: string, inner: string)
    requires s == "[" + inner && |inner| > 0 && inner[0] != ']'
    ensures ParseValue(s) == ParseItems(inner, [])
  {
    assert s[1..] == inner;
  }

  /** How `ParseItems` continues once the value at the front is read. */
  lemma ParseItemsStep(s: string, acc: seq<Value>, v: Value, rest: string)
    requires ParseValue(s) == Some((v, rest))
    ensures |rest| > 0 && rest[0] == ',' ==> ParseItems(s, acc) == ParseItems(rest[1..], acc + [v])
    ensures |rest| > 0 && rest[0] == ']' ==> ParseItems(s, acc) == Some((Arr(acc + [v]), rest[1..]))
  {
  }

  lemma ParseItemsLast(part: string, v: Value, acc: seq<Value>, rest: string)
    requires ParseValue(part + "]" + rest) == Some((v, "]" + rest))
    ensures ParseItems(part + "]" + rest, acc) == Some((Arr(acc + [v]), rest))
  {
    ParseItemsStep(part + "]" + rest, acc, v, "]" + rest);
    assert ("]" + rest)[1..] == rest;
  }

  lemma ParseItemsNext(part: string, v: Value, acc: seq<Value>, after2: string)
    requires ParseValue(part + "," + after2) == Some((v, "," + after2))
    ensures ParseItems(part + "," + after2, acc) == ParseItems(after2, acc + [v])
  {
    ParseItemsStep(part + "," + after2, acc, v, "," + after2);
    assert ("," + after2)[1..] == after2;
  }

  lemma ParseItemsHeadLast(parts: seq<string>, items: seq<Value>, acc: seq<Value>, rest: string)
    requires PartsReadBack(parts, items) && |parts| == 1
    ensures ParseItems(Join(parts, ",") + "]" + rest, acc) == Some((Arr(acc + [items[0]]), rest))
  {
    PartsReadBackAt(parts, items, 0, "]" + rest);
    assert parts[0] + ("]" + rest) == parts[0] + "]" + rest;
    ParseItemsLast(parts[0], items[0], acc, rest);
  }

  lemma ParseItemsHeadNext(parts: seq<string>, items: seq<Value>, acc: seq<Value>, rest: string)
    requires PartsReadBack(parts, items) && |parts| > 1
    ensures ParseItems(Join(parts, ",") + "]" + rest, acc)
         == ParseItems(Join(parts[1..], ",") + "]" + rest, acc + [items[0]])
  {
    var after2 := Join(parts[1..], ",") + "]" + rest;
    JoinedTail(parts, ",", "]", rest);
    PartsReadBackAt(parts, items, 0, "," + after2);
    assert parts[0] + ("," + after2) == parts[0] + "," + after2;
    ParseItemsNext(parts[0], items[0], acc, after2);
  }

  lemma AppendFront(acc: seq<Value>, items: seq<Value>)
    requires |items| > 0
    ensures acc + [items[0]] + items[1..] == acc + items
    ensures |items| == 1 ==> acc + [items[0]] == acc + items
  {
    assert items == [items[0]] + items[1..];
  }

  /** Elements joined by commas and closed by `]` read back as the values
      they encode. */
  lemma {:induction false} ParseItemsJoined(parts: seq<string>, items: seq<Value>, acc: seq<Value>, rest: string)
    requires PartsReadBack(parts, items) && |parts| > 0
    requires Delimited(rest)
    ensures ParseItems(Join(parts, ",") + "]" + rest, acc) == Some((Arr(acc + items), rest))
    decreases |items|
  {
    if |items| == 1 {
      ParseItemsHeadLast(parts, items, acc, rest);
      AppendFront(acc, items);
    } else {
      ParseItemsHeadNext(parts, items, acc, rest);
      PartsReadBackTail(parts, items);
      ParseItemsJoined(parts[1..], items[1..], acc + [items[0]], rest);
      AppendFront(acc, items);
    }
  }

  /** Every member value of `m` reads back from its encoding, whatever
      delimited text follows it. */
  ghost predicate MembersReadBack(m: map<string, Value>) {
    forall k, r :: k in m && Delimited(r) ==> ParseValue(Encode(m[k]) + r) == Some((m[k], r))
  }

  lemma ParseObjectEncoded(m: map<string, Value>, rest: string)
    requires MembersReadBack(m)
    requires Delimited(rest)
    ensures ParseValue(Encode(Obj(m)) + rest) == Some((Obj(m), rest))
  {
    if |m| == 0 {
      ParseEmptyObjectEncoded(m, rest);
    } else {
      var keys, parts, vparts, vals := ObjectParts(m);
      ParseOpenObjectText(Join(parts, ","), rest);
      ParseMembersJoined(parts, keys, vparts, vals, map[], rest);
    }
  }

  lemma ParseEmptyObjectEncoded(m: map<string, Value>, rest: string)
    requires |m| == 0
    ensures ParseValue(Encode(Obj(m)) + rest) == Some((Obj(m), rest))
  {
    assert m == map[];
    var s := Encode(Obj(m)) + rest;
    assert SortedKeys({}) == [];
    assert s == "{}" + rest;
    assert s[2..] == rest;
  }

  /** A non-empty object's encoding taken apart: its members in key order,
      each split into key and value text, and the values they encode. */
  lemma ObjectParts(m: map<string, Value>) returns (keys: seq<string>, parts: seq<string>, vparts: seq<string>, vals: seq<Value>)
    requires |m| > 0
    requires MembersReadBack(m)
    ensures Encode(Obj(m)) == "{" + Join(parts, ",") + "}"
    ensures |Join(parts, ",")| > 0 && Join(parts, ",")[0] == '"'
    ensures MemberTexts(parts, keys, vparts) && PartsReadBack(vparts, vals) && |parts| > 0
    ensures |keys| == |vals| && Assign(map[], keys, vals) == m
  {
    keys := SortedKeys(m.Keys);
    assert |m.Keys| > 0;
    parts := EncodeMembers(keys, m, Obj(m));
    vals, vparts := MemberValues(m, keys);
    ObjectTexts(m, keys, parts, vparts);
    ObjectValues(m, keys, vparts, vals);
    AssignSorted(m, vals);
  }

  /** The values stored under `keys`, and their encodings. */
  lemma MemberValues(m: map<string, Value>, keys: seq<string>) returns (vals: seq<Value>, vparts: seq<string>)
    requires forall i :: 0 <= i < |keys| ==> keys[i] in m
    ensures |vals| == |vparts| == |keys|
    ensures forall i :: 0 <= i < |keys| ==> vparts[i] == Encode(m[keys[i]]) && vals[i] == m[keys[i]]
  {
    vals := seq(|keys|, i requires 0 <= i < |keys| => m[keys[i]]);
    vparts := seq(|keys|, i requires 0 <= i < |keys| => Encode(m[keys[i]]));
  }

  lemma ObjectTexts(m: map<string, Value>, keys: seq<string>, parts: seq<string>, vparts: seq<string>)
    requires keys == SortedKeys(m.Keys) && |keys| > 0
    requires parts == EncodeMembers(keys, m, Obj(m))
    requires |vparts| == |keys| && forall i :: 0 <= i < |keys| ==> vparts[i] == Encode(m[keys[i]])
    ensures Encode(Obj(m)) == "{" + Join(parts, ",") + "}"
    ensures |Join(parts, ",")| > 0 && Join(parts, ",")[0] == '"'
    ensures MemberTexts(parts, keys, vparts) && |parts| > 0
  {
    JoinStart(parts, ",");
  }

  lemma ObjectValues(m: map<string, Value>, keys: seq<string>, vparts: seq<string>, vals: seq<Value>)
    requires MembersReadBack(m)
    requires forall i :: 0 <= i < |keys| ==> keys[i] in m
    requires |vparts| == |vals| == |keys|
    requires forall i :: 0 <= i < |keys| ==> vparts[i] == Encode(m[keys[i]]) && vals[i] == m[keys[i]]
    ensures PartsReadBack(vparts, vals)
  {
    forall i, r | 0 <= i < |vals| && Delimited(r)
      ensures ParseValue(vparts[i] + r) == Some((vals[i], r))
    {
      assert keys[i] in m;
    }
  }

  lemma ParseOpenObjectText(j: string, rest: string)
    requires |j| > 0 && j[0] == '"'
    ensures ParseValue("{" + j + "}" + rest) == ParseMembers(j + "}" + rest, map[])
  {
    var body := j + "}" + rest;
    Regroup("{", j, "}", rest);
    assert ("{" + body)[1..] == body;
  }

  /** Storing each member of `m` in ascending key order rebuilds `m`. */
  lemma AssignSorted(m: map<string, Value>, vals: seq<Value>)
    requires |vals| == |m|
    requires forall i :: 0 <= i < |vals| ==> vals[i] == m[SortedKeys(m.Keys)[i]]
    ensures Assign(map[], SortedKeys(m.Keys), vals) == m
  {
    var keys := SortedKeys(m.Keys);
    AssignAll(map[], keys, vals, m);
    AllKeysOf(keys, m);
  }

  lemma AllKeysOf(keys: seq<string>, m: map<string, Value>)
    requires forall k :: k in keys <==> k in m
    ensures map[] + KeysOf(keys, m) == m
  {
    var r := KeysOf(keys, m);
    assert r.Keys == m.Keys;
    assert map[] + r == r;
  }

  /** The map obtained by storing `vals[i]` under `keys[i]` in order, later
      pairs replacing earlier ones. */
  function Assign(acc: map<string, Value>, keys: seq<string>, vals: seq<Value>): map<string, Value>
    requires |keys| == |vals|
    decreases |keys|
  {
    if |keys| == 0 then acc else Assign(acc[keys[0] := vals[0]], keys[1..], vals[1..])
  }

  /** The members of `m` under the keys listed in `keys`. */
  function KeysOf(keys: seq<string>, m: map<string, Value>): (r: map<string, Value>)
    requires forall i :: 0 <= i < |keys| ==> keys[i] in m
  {
    map k | k in keys :: m[k]
  }

  lemma {:induction false} AssignAll(acc: map<string, Value>, keys: seq<string>, vals: seq<Value>, m: map<string, Value>)
    requires |keys| == |vals|
    requires forall i :: 0 <= i < |keys| ==> keys[i] in m && vals[i] == m[keys[i]]
    ensures Assign(acc, keys, vals) == acc + KeysOf(keys, m)
    decreases |keys|
  {
    if |keys| > 0 {
      AssignAll(acc[keys[0] := vals[0]], keys[1..], vals[1..], m);
      KeysOfCons(keys, m);
      MergeUpdate(acc, KeysOf(keys[1..], m), keys[0], vals[0]);
    }
  }

  lemma KeysOfCons(keys: seq<string>, m: map<string, Value>)
    requires |keys| > 0 && forall i :: 0 <= i < |keys| ==> keys[i] in m
    ensures KeysOf(keys, m) == KeysOf(keys[1..], m)[keys[0] := m[keys[0]]]
  {
    assert forall k :: k in keys <==> k == keys[0] || k in keys[1..];
  }

  /** Storing `v` under `k` before merging `x` in is storing it in `x` first,
      when `x` holds nothing else under `k`. */
  lemma MergeUpdate(acc: map<string, Value>, x: map<string, Value>, k: string, v: Value)
    requires k in x ==> x[k] == v
    ensures acc[k := v] + x == acc + x[k := v]
  {
  }

  /** How `ParseMembers` continues once one `"key":value` member is read. */
  lemma ParseMemberStep(k: string, vtext: string, v: Value, after: string, acc: map<string, Value>)
    requires ParseValue(vtext + after) == Some((v, after))
    ensures |after| > 0 && after[0] == ',' ==>
              ParseMembers(Quote(k) + ":" + vtext + after, acc) == ParseMembers(after[1..], acc[k := v])
    ensures |after| > 0 && after[0] == '}' ==>
              ParseMembers(Quote(k) + ":" + vtext + after, acc) == Some((Obj(acc[k := v]), after[1..]))
  {
    var tail := ":" + vtext + after;
    Regroup(Quote(k), ":", vtext, after);
    ParseQuoted(k, tail);
    Regroup3(":", vtext, after);
    DropHead(":", vtext + after);
    ParseMemberUnfold(Quote(k) + tail, acc, k, tail, v, after);
  }

  /** How the member reader proceeds once a key, a colon and a value have
      been read. */
  lemma ParseMemberUnfold(s: string, acc: map<string, Value>, k: string, tail: string, v: Value, after: string)
    requires |s| > 0 && s[0] == '"' && ParseString(s[1..]) == Some((k, tail))
    requires |tail| > 0 && tail[0] == ':' && ParseValue(tail[1..]) == Some((v, after))
    ensures |after| > 0 && after[0] == ',' ==> ParseMembers(s, acc) == ParseMembers(after[1..], acc[k := v])
    ensures |after| > 0 && after[0] == '}' ==> ParseMembers(s, acc) == Some((Obj(acc[k := v]), after[1..]))
  {
  }

  /** A quoted key reads back as the key, leaving what follows it. */
  lemma ParseQuoted(k: string, tail: string)
    ensures var s := Quote(k) + tail; |s| > 0 && s[0] == '"' && ParseString(s[1..]) == Some((k, tail))
  {
    var s := Quote(k) + tail;
    assert s == "\"" + (Escape(k) + "\"" + tail);
    assert s[1..] == Escape(k) + "\"" + tail;
    ParseEscaped(k, tail);
  }

  lemma ParseMembersLast(part: string, k: string, vtext: string, v: Value, acc: map<string, Value>, rest: string)
    requires part == Quote(k) + ":" + vtext
    requires ParseValue(vtext + ("}" + rest)) == Some((v, "}" + rest))
    ensures ParseMembers(part + "}" + rest, acc) == Some((Obj(acc[k := v]), rest))
  {
    var after := "}" + rest;
    Regroup3(part, "}", rest);
    ParseMemberStep(k, vtext, v, after, acc);
    assert after[1..] == rest;
  }

  lemma ParseMembersNext(part: string, k: string, vtext: string, v: Value, acc: map<string, Value>, after2: string)
    requires part == Quote(k) + ":" + vtext
    requires ParseValue(vtext + ("," + after2)) == Some((v, "," + after2))
    ensures ParseMembers(part + "," + after2, acc) == ParseMembers(after2, acc[k := v])
  {
    var after := "," + after2;
    Regroup3(part, ",", after2);
    ParseMemberStep(k, vtext, v, after, acc);
    assert after[1..] == after2;
  }

  /** `parts[i]` is the member `"keys[i]":vparts[i]`. */
  ghost predicate MemberTexts(parts: seq<string>, keys: seq<string>, vparts: seq<string>) {
    && |parts| == |keys| == |vparts|
    && forall i :: 0 <= i < |parts| ==> parts[i] == Quote(keys[i]) + ":" + vparts[i]
  }

  lemma MemberTextsTail(parts: seq<string>, keys: seq<string>, vparts: seq<string>)
    requires MemberTexts(parts, keys, vparts) && |parts| > 0
    ensures MemberTexts(parts[1..], keys[1..], vparts[1..])
  {
    forall i | 0 <= i < |parts| - 1
      ensures parts[1..][i] == Quote(keys[1..][i]) + ":" + vparts[1..][i]
    {
      assert parts[1..][i] == parts[i + 1] && keys[1..][i] == keys[i + 1] && vparts[1..][i] == vparts[i + 1];
    }
  }

  lemma ParseMembersHeadLast(parts: seq<string>, keys: seq<string>, vparts: seq<string>,
                             vals: seq<Value>, acc: map<string, Value>, rest: string)
    requires MemberTexts(parts, keys, vparts) && PartsReadBack(vparts, vals) && |parts| == 1
    ensures ParseMembers(Join(parts, ",") + "}" + rest, acc) == Some((Obj(acc[keys[0] := vals[0]]), rest))
  {
    PartsReadBackAt(vparts, vals, 0, "}" + rest);
    ParseMembersLast(parts[0], keys[0], vparts[0], vals[0], acc, rest);
  }

  lemma ParseMembersHeadNext(parts: seq<string>, keys: seq<string>, vparts: seq<string>,
                             vals: seq<Value>, acc: map<string, Value>, rest: string)
    requires MemberTexts(parts, keys, vparts) && PartsReadBack(vparts, vals) && |parts| > 1
    ensures ParseMembers(Join(parts, ",") + "}" + rest, acc)
         == ParseMembers(Join(parts[1..], ",") + "}" + rest, acc[keys[0] := vals[0]])
  {
    var after2 := Join(parts[1..], ",") + "}" + rest;
    JoinedTail(parts, ",", "}", rest);
    PartsReadBackAt(vparts, vals, 0, "," + after2);
    ParseMembersNext(parts[0], keys[0], vparts[0], vals[0], acc, after2);
  }

  /** Members joined by commas and closed by `}` read back as the map that
      stores each value under its key. */
  lemma {:induction false} ParseMembersJoined(parts: seq<string>, keys: seq<string>, vparts: seq<string>,
                                             vals: seq<Value>, acc: map<string, Value>, rest: string)
    requires MemberTexts(parts, keys, vparts) && PartsReadBack(vparts, vals) && |parts| > 0
    requires Delimited(rest)
    ensures ParseMembers(Join(parts, ",") + "}" + rest, acc) == Some((Obj(Assign(acc, keys, vals)), rest))
    decreases |parts|
  {
    if |parts| == 1 {
      ParseMembersHeadLast(parts, keys, vparts, vals, acc, rest);
    } else {
      ParseMembersHeadNext(parts, keys, vparts, vals, acc, rest);
      MemberTextsTail(parts, keys, vparts);
      PartsReadBackTail(vparts, vals);
      ParseMembersJoined(parts[1..], keys[1..], vparts[1..], vals[1..], acc[keys[0] := vals[0]], rest);
    }
  }

  /** Decoding an encoding gives back the value. */
  lemma DecodeEncode(v: Value)
    ensures Decode(Encode(v)) == Some(v)
  {
    ParseEncoded(v, "");
    assert Encode(v) + "" == Encode(v);
  }

  /** Unmarshalling the encoding of an object into a map gives back its
      members. */
  lemma UnmarshalEncoded(m: map<string, Value>)
    ensures UnmarshalObject(Encode(Obj(m))) == Fields(m)
  {
    DecodeEncode(Obj(m));
  }

  /** `null` is the only text that unmarshals into a nil map. */
  lemma UnmarshalNull(s: string)
    ensures UnmarshalObject(s).NilMap? <==> s == "null"
  {
    if Decode(s) == Some(Null) {
      assert |s| > 0 && s[0] == 'n';
      assert s[..4] == "null" && |s[4..]| == 0;
      assert s == s[..4] + s[4..];
    }
    if s == "null" {
      assert s[..4] == "null";
    }
  }

  /** The empty text is not JSON. */
  lemma UnmarshalEmpty()
    ensures UnmarshalObject("") == Malformed
  {
  }

  /** Texts `json.Unmarshal` refuses are refused here too: a raw tab inside
      a string, and a number with a leading zero. */
  lemma UnmarshalRefuses()
    ensures UnmarshalObject("{\"a\":\"\t\"}") == Malformed
    ensures UnmarshalObject("{\"a\":01}") == Malformed
  {
    MemberValueRefused("{\"a\":\"\t\"}", "\"\t\"}");
    assert ParseValue("\"\t\"}") == None by {
      assert "\"\t\"}"[1..] == "\t\"}";
      assert ParseString("\t\"}") == None;
    }
    MemberValueRefused("{\"a\":01}", "01}");
    var zero := "01}";
    assert DigitRun(zero) == 2 by {
      assert zero[1..] == "1}" && zero[2..] == "}";
    }
  }

  /** An object whose only key is `a` is refused when its value is. */
  lemma MemberValueRefused(s: string, v: string)
    requires s == "{\"a\":" + v
    requires ParseValue(v) == None
    ensures UnmarshalObject(s) == Malformed
  {
    var body := s[1..];
    assert body == "\"a\":" + v;
    KeyRead(v);
    assert body[1..] == "a\":" + v;
    assert ParseMembers(body, map[]) == None;
    assert ParseValue(s) == None;
  }

  lemma KeyRead(v: string)
    ensures ParseString("a\":" + v) == Some(("a", ":" + v))
  {
    var t := "a\":" + v;
    assert t[1..] == "\":" + v;
    assert t[1..][1..] == ":" + v;
    assert ParseString(t[1..]) == Some(([], ":" + v));
    assert ['a'] + [] == "a";
  }

  /** Control characters, `<`, `>`, `&` and the line and paragraph
      separators are written as `\u` escapes with lower-case hex digits. */
  lemma EscapeHex()
    ensures Escape([0x01 as char]) == "\\u0001"
    ensures Escape(['<']) == "\\u003c"
    ensures Escape([0x2028 as char]) == "\\u2028"
  {
    assert Escape([0x01 as char]) == EscapeChar(0x01 as char);
    assert Escape(['<']) == EscapeChar('<');
    assert Escape([0x2028 as char]) == EscapeChar(0x2028 as char);
  }

  /** For every character: it is written as a six-character `\u` escape
      exactly when it needs one, and the four digits after `\u` read back
      to the character's code. */
  lemma HexEscaped(c: char)
    ensures NeedsHexEscape(c) <==> |EscapeChar(c)| == 6
    ensures NeedsHexEscape(c) ==>
              && EscapeChar(c)[..2] == "\\u"
              && ReadHexQuad(EscapeChar(c)[2..]) == Some(c as int)
              && (forall i :: 2 <= i < 6 ==> LowerHex(EscapeChar(c)[i]))
  {
    if NeedsHexEscape(c) {
      var q := HexQuad(c as int);
      assert EscapeChar(c) == "\\u" + q;
      assert EscapeChar(c)[2..] == q + [];
      HexQuadRead(c as int, []);
      HexQuadLower(c as int);
    }
  }

  /** A lower-case hex digit. */
  predicate LowerHex(c: char) {
    '0' <= c <= '9' || 'a' <= c <= 'f'
  }

  lemma HexQuadLower(n: nat)
    requires n < 0x10000
    ensures forall i :: 0 <= i < 4 ==> LowerHex(HexQuad(n)[i])
  {
  }

  /** No character below a space. */
  predicate Printable(s: string) {
    forall i :: 0 <= i < |s| ==> s[i] >= ' '
  }

  /** The escape of one character holds no raw control character. */
  lemma EscapeCharPrintable(c: char)
    ensures Printable(EscapeChar(c))
  {
    match EscapeLetter(c)
    case Some(e) =>
    case None =>
      if NeedsHexEscape(c) {
        var q := HexQuad(c as int);
        forall i | 0 <= i < 4
          ensures q[i] >= ' '
        {
          assert HexValue(q[i]).Some?;
        }
        assert EscapeChar(c) == "\\u" + q;
      }
  }

  /** `json.Marshal` never writes a raw control character inside a string:
      neither does `Escape`, whatever the text. */
  lemma {:induction false} EscapePrintable(t: string)
    ensures Printable(Escape(t))
    decreases |t|
  {
    if |t| > 0 {
      EscapeCharPrintable(t[0]);
      EscapePrintable(t[1..]);
      var a, b := EscapeChar(t[0]), Escape(t[1..]);
      assert Escape(t) == a + b;
      forall i | 0 <= i < |a + b|
        ensures (a + b)[i] >= ' '
      {
        if i >= |a| {
          assert (a + b)[i] == b[i - |a|];
        }
      }
    }
  }

  /** A raw control character before the closing quote makes the string
      unreadable, whatever plain text precedes it and whatever follows. */
  lemma {:induction false} RawControlRefused(p: string, c: char, rest: string)
    requires forall i :: 0 <= i < |p| ==> p[i] >= ' ' && p[i] != '"' && p[i] != '\\'
    requires c < ' '
    ensures ParseString(p + [c] + rest) == None
    decreases |p|
  {
    var s := p + [c] + rest;
    if |p| == 0 {
      assert s[0] == c;
    } else {
      RawControlRefused(p[1..], c, rest);
      assert s[0] == p[0];
      assert s[1..] == p[1..] + [c] + rest;
    }
  }

  /** A number whose digits start with `0` followed by another digit is
      refused, with or without a sign. */
  lemma LeadingZeroRefused(s: string)
    requires |s| >= 2 && s[0] == '0' && IsDigit(s[1])
    ensures ParseNumber(s) == None
    ensures ParseNumber("-" + s) == None
  {
    assert DigitRun(s) >= 2 by {
      assert DigitRun(s) == 1 + DigitRun(s[1..]);
      assert s[1..][0] == s[1];
    }
    assert ("-" + s)[1..] == s;
  }
}

=== FILE: lineage.dfy ===
/**
 Revision lineage across a sequence of requests.

 Every successful put or delete writes the new record twice: under its title
 and under `title#rev` in the history. The history is meant to be append-only
 and to hold every revision a title has had. Putting a title whose current
 record cannot be read breaks that: the handler treats any read error as "no
 record yet", restarts at revision 1 and overwrites `title#1`. `Store.PutTiddlerStrict`
 is the put that fails instead; with it the history only ever grows, whatever
 fails, and when nothing fails it holds revisions 1 to `rev` of every title.
 */
module Lineage {

  import opened Strings
  import opened Json
  import opened Store

  /** A request that can change the store. */
  datatype Op =
    | Put(title: string, body: string, admin: bool)
    | Delete(title: string, httpMethod: string, admin: bool)

  function Apply(st: Store, op: Op, faults: Faults): Step<int> {
    match op
    case Put(title, body, admin) => PutTiddlerStrict(st, title, body, admin, faults)
    case Delete(title, httpMethod, admin) => DeleteTiddler(st, title, httpMethod, admin, faults)
  }

  /** The store after each request in turn, each with its own faults. */
  function Replay(st: Store, ops: seq<(Op, Faults)>): Store
    decreases |ops|
  {
    if |ops| == 0 then st else Replay(Apply(st, ops[0].0, ops[0].1).store, ops[1..])
  }

  /** Every revision number is at least 1, and every history entry belongs to
      a current title at a revision no later than its current one. */
  ghost predicate Bounded(st: Store) {
    && (forall t :: t in st.current ==> st.current[t].rev >= 1)
    && (forall t, r :: HistoryKey(t, r) in st.history ==> t in st.current && 1 <= r <= st.current[t].rev)
  }

  /** `after` keeps every entry of `before` unchanged. */
  ghost predicate Extends(before: map<string, Tiddler>, after: map<string, Tiddler>) {
    forall k :: k in before ==> k in after && after[k] == before[k]
  }

  /** The history holds every revision from 1 to the current one of every
      title, and the latest of them is the current record. */
  ghost predicate Complete(st: Store) {
    && (forall t, r :: t in st.current && 1 <= r <= st.current[t].rev ==> HistoryKey(t, r) in st.history)
    && (forall t :: t in st.current ==>
          HistoryKey(t, st.current[t].rev) in st.history && st.history[HistoryKey(t, st.current[t].rev)] == st.current[t])
  }

  lemma EmptyStore()
    ensures Bounded(Store(map[], map[])) && Complete(Store(map[], map[]))
  {
  }

  /** Writing the next revision of a title never touches an existing history
      entry, and keeps the store bounded. */
  lemma WriteKeepsBounded(st: Store, title: string, t: Tiddler, faults: Faults)
    requires Bounded(st)
    requires t.rev == NextRevision(st, title, NoFaults)
    ensures Bounded(WriteRecord(st, title, t, faults).store)
    ensures Extends(st.history, WriteRecord(st, title, t, faults).store.history)
  {
    var r := WriteRecord(st, title, t, faults);
    var key := HistoryKey(title, t.rev);
    assert key !in st.history;
    forall x, n | HistoryKey(x, n) in r.store.history
      ensures x in r.store.current && 1 <= n <= r.store.current[x].rev
    {
      if HistoryKey(x, n) !in st.history {
        HistoryKeyInjective(x, n, title, t.rev);
      }
    }
  }

  /** Every request, whatever fails, keeps the store bounded and the history
      append-only. */
  lemma ApplyKeepsBounded(st: Store, op: Op, faults: Faults)
    requires Bounded(st)
    ensures Bounded(Apply(st, op, faults).store)
    ensures Extends(st.history, Apply(st, op, faults).store.history)
  {
    match op
    case Put(title, body, admin) =>
      if admin && UnmarshalObject(body).Fields? && !faults.readFails {
        var js := UnmarshalObject(body).fields;
        WriteKeepsBounded(st, title, NewRecord(js, NextRevision(st, title, faults)), faults);
      }
    case Delete(title, httpMethod, admin) =>
      if admin && httpMethod == "DELETE" && !faults.readFails && title in st.current {
        var prior := st.current[title];
        WriteKeepsBounded(st, title, prior.(rev := prior.rev + 1, meta := "", text := ""), faults);
      }
  }

  /** The history is append-only over any run of requests under any faults. */
  lemma {:induction false} ReplayAppendOnly(st: Store, ops: seq<(Op, Faults)>)
    requires Bounded(st)
    ensures Bounded(Replay(st, ops))
    ensures Extends(st.history, Replay(st, ops).history)
    decreases |ops|
  {
    if |ops| > 0 {
      var next := Apply(st, ops[0].0, ops[0].1).store;
      ApplyKeepsBounded(st, ops[0].0, ops[0].1);
      ReplayAppendOnly(next, ops[1..]);
    }
  }

  /** A complete write of the next revision keeps the lineage complete. */
  lemma WriteKeepsComplete(st: Store, title: string, t: Tiddler)
    requires Bounded(st) && Complete(st)
    requires t.rev == NextRevision(st, title, NoFaults)
    ensures Complete(WriteRecord(st, title, t, NoFaults).store)
  {
    WriteKeepsRevisions(st, title, t);
    WriteKeepsLatest(st, title, t);
  }

  /** Revisions 1 to the current one stay in the history after the write. */
  lemma WriteKeepsRevisions(st: Store, title: string, t: Tiddler)
    requires Complete(st)
    requires t.rev == NextRevision(st, title, NoFaults)
    ensures var r := WriteRecord(st, title, t, NoFaults).store;
            forall x, n :: x in r.current && 1 <= n <= r.current[x].rev ==> HistoryKey(x, n) in r.history
  {
  }

  /** Every current record is still the history entry of its revision. */
  lemma WriteKeepsLatest(st: Store, title: string, t: Tiddler)
    requires Bounded(st) && Complete(st)
    requires t.rev == NextRevision(st, title, NoFaults)
    ensures var r := WriteRecord(st, title, t, NoFaults).store;
            forall x :: x in r.current ==>
              HistoryKey(x, r.current[x].rev) in r.history && r.history[HistoryKey(x, r.current[x].rev)] == r.current[x]
  {
    var r := WriteRecord(st, title, t, NoFaults).store;
    forall x | x in r.current
      ensures HistoryKey(x, r.current[x].rev) in r.history
      ensures r.history[HistoryKey(x, r.current[x].rev)] == r.current[x]
    {
      if x != title {
        OtherKeyKept(st, title, t, x);
      }
    }
  }

  /** The history entry of another title's current revision is not the one
      being written. */
  lemma OtherKeyKept(st: Store, title: string, t: Tiddler, x: string)
    requires Complete(st) && x != title && x in st.current
    ensures HistoryKey(x, st.current[x].rev) != HistoryKey(title, t.rev)
    ensures HistoryKey(x, st.current[x].rev) in st.history
    ensures st.history[HistoryKey(x, st.current[x].rev)] == st.current[x]
  {
    if HistoryKey(x, st.current[x].rev) == HistoryKey(title, t.rev) {
      HistoryKeyInjective(x, st.current[x].rev, title, t.rev);
    }
  }

  /** Requests on which nothing fails keep the lineage complete. */
  lemma ApplyKeepsComplete(st: Store, op: Op)
    requires Bounded(st) && Complete(st)
    ensures Complete(Apply(st, op, NoFaults).store)
  {
    match op
    case Put(title, body, admin) =>
      if admin && UnmarshalObject(body).Fields? {
        var js := UnmarshalObject(body).fields;
        WriteKeepsComplete(st, title, NewRecord(js, NextRevision(st, title, NoFaults)));
      }
    case Delete(title, httpMethod, admin) =>
      if admin && httpMethod == "DELETE" && title in st.current {
        var prior := st.current[title];
        WriteKeepsComplete(st, title, prior.(rev := prior.rev + 1, meta := "", text := ""));
      }
  }

  /** The requests of `ops` all run without a failing datastore call. */
  predicate Faultless(ops: seq<(Op, Faults)>) {
    forall i :: 0 <= i < |ops| ==> ops[i].1 == NoFaults
  }

  /** From a store whose lineage is complete, the empty one for instance, a
      run on which no datastore call fails leaves a history holding every
      revision of every title, the latest equal to the current record. */
  lemma {:induction false} ReplayComplete(st: Store, ops: seq<(Op, Faults)>)
    requires Bounded(st) && Complete(st)
    requires Faultless(ops)
    ensures Bounded(Replay(st, ops)) && Complete(Replay(st, ops))
    decreases |ops|
  {
    if |ops| > 0 {
      assert ops[0].1 == NoFaults;
      var next := Apply(st, ops[0].0, NoFaults).store;
      ApplyKeepsBounded(st, ops[0].0, NoFaults);
      ApplyKeepsComplete(st, ops[0].0);
      assert Faultless(ops[1..]) by {
        forall i | 0 <= i < |ops| - 1
          ensures ops[1..][i].1 == NoFaults
        {
          assert ops[1..][i] == ops[i + 1];
        }
      }
      ReplayComplete(next, ops[1..]);
    }
  }

  /** From the empty datastore, any sequence of requests under any faults
      keeps every history entry within its title's revisions, and a
      fault-free sequence keeps every revision of every title. */
  lemma ReplayFromEmpty(ops: seq<(Op, Faults)>)
    ensures Bounded(Replay(Store(map[], map[]), ops))
    ensures Faultless(ops) ==> Complete(Replay(Store(map[], map[]), ops))
  {
    EmptyStore();
    ReplayAppendOnly(Store(map[], map[]), ops);
    if Faultless(ops) {
      ReplayComplete(Store(map[], map[]), ops);
    }
  }

  /** A failed read makes the handler as written restart a title at revision
      1 and overwrite the history entry of its first revision. */
  lemma ResetOverwritesHistory(body: string)
    requires UnmarshalObject(body).Fields?
    ensures var first := Tiddler(1, "", "", ["old"]);
            var st := Store(map["A" := Tiddler(5, "", "", [])], map[HistoryKey("A", 1) := first]);
            var r := PutTiddler(st, "A", body, true, Faults(true, false, false));
            && Bounded(st)
            && r.reply == Done(1)
            && r.store.current["A"].rev == 1
            && HistoryKey("A", 1) in r.store.history
            && r.store.history[HistoryKey("A", 1)] != first
            && !Extends(st.history, r.store.history)
  {
    var first := Tiddler(1, "", "", ["old"]);
    var st := Store(map["A" := Tiddler(5, "", "", [])], map[HistoryKey("A", 1) := first]);
    ResetStartBounded(st, first);
    var js := UnmarshalObject(body).fields;
    assert NextRevision(st, "A", Faults(true, false, false)) == 1;
    var r := PutTiddler(st, "A", body, true, Faults(true, false, false));
    assert r.store.current["A"] == NewRecord(js, 1);
    assert r.store.current["A"].tags == [];
  }

  /** The store before the reset: title `A` at revision 5, with only the
      history entry of its first revision. */
  lemma ResetStartBounded(st: Store, first: Tiddler)
    requires st == Store(map["A" := Tiddler(5, "", "", [])], map[HistoryKey("A", 1) := first])
    ensures Bounded(st)
  {
    forall x, n | HistoryKey(x, n) in st.history
      ensures x in st.current && 1 <= n <= st.current[x].rev
    {
      HistoryKeyInjective(x, n, "A", 1);
    }
  }

  /** The strict put refuses the same request and leaves the store as it was. */
  lemma StrictRefusesReset(st: Store, title: string, body: string)
    requires UnmarshalObject(body).Fields?
    ensures PutTiddlerStrict(st, title, body, true, Faults(true, false, false)) == Step(st, Failed(LookupFailed))
  {
  }
}

=== FILE: mirror.dfy ===
/**
 The git mirror of gitbackup/gitbackup.go: each run renders every stored
 tiddler as a `.tid` file, rebuilds the `tiddlers/` directory of a local
 clone from scratch, and commits and pushes when the directory differs from
 the last commit.

 A `.tid` file is a block of `key: value` lines, a blank line and the body.
 The clone is reduced to three trees (the `tiddlers/` directory of the work
 tree, the last commit, the last push) and a commit counter; go-git and the
 filesystem are not modelled beyond that, and their failures are inputs.
 */
module Mirror {

  import opened Wrappers
  import opened Strings
  import opened Json
  import Store

  /* ---------------------------------------------------------------------- */
  /* The .tid format                                                         */
  /* ---------------------------------------------------------------------- */

  /** The fields and the body of one `.tid` file. */
  datatype TidFile = TidFile(fields: seq<(string, string)>, body: string)

  function Line(k: string, v: string): string {
    k + ": " + v + "\n"
  }

  function Header(fields: seq<(string, string)>): string
    decreases |fields|
  {
    if |fields| == 0 then "" else Line(fields[0].0, fields[0].1) + Header(fields[1..])
  }

  /** The header lines, one blank line, then the body verbatim. */
  function FormatTid(f: TidFile): string {
    Header(f.fields) + "\n" + f.body
  }

  /** Reads a `.tid` text back: header lines split at their first `:` (which
      must be followed by a space) up to the first blank line; the rest is
      the body. */
  function ParseTid(s: string): Option<TidFile>
    decreases |s|
  {
    if |s| > 0 && s[0] == '\n' then Some(TidFile([], s[1..]))
    else
      match SplitFirst(s, '\n')
      case None => None
      case Some((line, rest)) =>
        match SplitFirst(line, ':')
        case None => None
        case Some((k, after)) =>
          if |after| == 0 || after[0] != ' ' then None
          else
            match ParseTid(rest)
            case None => None
            case Some(f) => Some(TidFile([(k, after[1..])] + f.fields, f.body))
  }

  /** A field that fits on one header line and splits back at the right
      colon. */
  predicate PlainField(p: (string, string)) {
    ':' !in p.0 && '\n' !in p.0 && '\n' !in p.1
  }

  /** Reading a text that starts with one header line. */
  lemma ParseLine(k: string, v: string, tail: string)
    requires PlainField((k, v))
    ensures ParseTid(Line(k, v) + tail) ==
              match ParseTid(tail)
              case None => None
              case Some(f) => Some(TidFile([(k, v)] + f.fields, f.body))
  {
    var line := k + ": " + v;
    var s := Line(k, v) + tail;
    assert s == line + "\n" + tail;
    assert s[0] != '\n' by {
      if |k| > 0 {
        assert s[0] == k[0];
      } else {
        assert s[0] == ':';
      }
    }
    assert '\n' !in line by {
      assert forall i :: 0 <= i < |line| ==> line[i] in k || line[i] in ": " || line[i] in v;
    }
    SplitFirstOf(line, '\n', tail);
    assert line == k + [':'] + (" " + v);
    SplitFirstOf(k, ':', " " + v);
  }

  /** A `.tid` text reads back to the fields and the body it was written
      from, for any body, when each field is plain. */
  lemma {:induction false} ParseFormatted(fields: seq<(string, string)>, body: string)
    requires forall i :: 0 <= i < |fields| ==> PlainField(fields[i])
    ensures ParseTid(FormatTid(TidFile(fields, body))) == Some(TidFile(fields, body))
    decreases |fields|
  {
    var s := FormatTid(TidFile(fields, body));
    if |fields| == 0 {
      assert s == "\n" + body;
      assert s[1..] == body;
    } else {
      var tail := FormatTid(TidFile(fields[1..], body));
      assert s == Line(fields[0].0, fields[0].1) + tail;
      ParseFormatted(fields[1..], body);
      ParseLine(fields[0].0, fields[0].1, tail);
      assert [(fields[0].0, fields[0].1)] + fields[1..] == fields;
    }
  }

  /* ---------------------------------------------------------------------- */
  /* Rendering one tiddler                                                   */
  /* ---------------------------------------------------------------------- */

  /** The words of a `tags` array; none when an element is not a string. */
  function TagWords(tags: seq<Value>): (r: Option<seq<string>>)
    ensures r.Some? <==> forall i :: 0 <= i < |tags| ==> tags[i].Str?
    ensures r.Some? ==> |r.value| == |tags| && forall i :: 0 <= i < |tags| ==> r.value[i] == tags[i].s
    decreases |tags|
  {
    if |tags| == 0 then Some([])
    else
      match TagWords(tags[1..])
      case None => None
      case Some(ws) => if tags[0].Str? then Some([tags[0].s] + ws) else None
  }

  /** What the render loop does with one metadata key. */
  datatype FieldView =
    | NoLine          // an empty `tags` array: no line at all
    | Text(s: string) // a `key: s` line
    | Bad             // a failed type assertion: the run panics

  /** The text of the line for key `k` with decoded value `v`: `tags` must be
      an array of strings and is written as its words joined by single
      spaces; every other value is written with `%v`. */
  function FieldText(k: string, v: Value): FieldView {
    if k != "tags" then Text(Show(v))
    else
      match v
      case Arr(tags) =>
        if |tags| == 0 then NoLine
        else (
          match TagWords(tags)
          case Some(ws) => Text(Join(ws, " "))
          case None => Bad)
      case _ => Bad
  }

  /** The header fields for the keys in the order given; none when a key's
      value makes the loop panic. */
  function TidFields(keys: seq<string>, js: map<string, Value>): (r: Option<seq<(string, string)>>)
    requires forall k :: k in keys ==> k in js
    ensures r.Some? <==> forall i :: 0 <= i < |keys| ==> !FieldText(keys[i], js[keys[i]]).Bad?
    decreases |keys|
  {
    if |keys| == 0 then Some([])
    else
      match TidFields(keys[1..], js)
      case None => None
      case Some(rest) =>
        match FieldText(keys[0], js[keys[0]])
        case Bad => None
        case NoLine => Some(rest)
        case Text(v) => Some([(keys[0], v)] + rest)
  }

  /** The fields are the keys that have a line, each with its text. */
  lemma {:induction false} TidFieldsMembers(keys: seq<string>, js: map<string, Value>)
    requires forall k :: k in keys ==> k in js
    requires TidFields(keys, js).Some?
    ensures forall p :: p in TidFields(keys, js).value <==> p.0 in keys && FieldText(p.0, js[p.0]) == Text(p.1)
    decreases |keys|
  {
    if |keys| > 0 {
      TidFieldsMembers(keys[1..], js);
      assert forall k :: k in keys <==> k == keys[0] || k in keys[1..];
    }
  }

  /** For keys in strictly ascending order, the field names are too. */
  lemma {:induction false} TidFieldsSorted(keys: seq<string>, js: map<string, Value>)
    requires forall k :: k in keys ==> k in js
    requires TidFields(keys, js).Some? && StrictlySorted(keys)
    ensures var fs := TidFields(keys, js).value;
            forall i, j :: 0 <= i < j < |fs| ==> Below(fs[i].0, fs[j].0) && fs[i].0 != fs[j].0
    decreases |keys|
  {
    if |keys| > 0 {
      var fs := TidFields(keys, js).value;
      var rest := TidFields(keys[1..], js).value;
      assert StrictlySorted(keys[1..]) by {
        forall i, j | 0 <= i < j < |keys| - 1
          ensures Below(keys[1..][i], keys[1..][j]) && keys[1..][i] != keys[1..][j]
        {
          assert keys[1..][i] == keys[i + 1] && keys[1..][j] == keys[j + 1];
        }
      }
      TidFieldsSorted(keys[1..], js);
      TidFieldsMembers(keys[1..], js);
      if fs != rest {
        forall j | 0 < j < |fs|
          ensures Below(fs[0].0, fs[j].0) && fs[0].0 != fs[j].0
        {
          assert fs[j] == rest[j - 1];
          assert fs[j] in rest;
          var k :| 0 <= k < |keys| - 1 && keys[1..][k] == fs[j].0;
          assert keys[k + 1] == fs[j].0;
        }
      }
    }
  }

  /** Prepending a key with a line prepends its field. */
  lemma TidFieldsCons(k: string, rest: seq<string>, js: map<string, Value>, v: string, fs: seq<(string, string)>)
    requires k in js && forall x :: x in rest ==> x in js
    requires FieldText(k, js[k]) == Text(v)
    requires TidFields(rest, js) == Some(fs)
    ensures TidFields([k] + rest, js) == Some([(k, v)] + fs)
  {
    assert ([k] + rest)[1..] == rest;
  }

  /** The name of a tiddler's file: its `title` field written with `%v`. */
  function FileName(js: map<string, Value>): string {
    Show(if "title" in js then js["title"] else Null) + ".tid"
  }

  /** What the render loop makes of one stored record. */
  datatype Rendered = Skip | File(name: string, content: string) | Crash

  function Render(t: Store.Tiddler): Rendered {
    if |t.meta| == 0 then Skip
    else
      match UnmarshalObject(t.meta)
      case Malformed => Skip
      case NilMap => File(FileName(map[]), FormatTid(TidFile([], t.text)))
      case Fields(js) =>
        match TidFields(SortedKeys(js.Keys), js)
        case None => Crash
        case Some(fs) => File(FileName(js), FormatTid(TidFile(fs, t.text)))
  }

  /** Which records are skipped, which make the run panic, and which give a
      file. */
  lemma RenderOutcome(t: Store.Tiddler)
    ensures Render(t).Skip? <==> |t.meta| == 0 || UnmarshalObject(t.meta).Malformed?
    ensures Render(t).Crash? <==>
              && UnmarshalObject(t.meta).Fields?
              && "tags" in UnmarshalObject(t.meta).fields
              && FieldText("tags", UnmarshalObject(t.meta).fields["tags"]).Bad?
    ensures UnmarshalObject(t.meta).NilMap? ==> Render(t) == File("<nil>.tid", "\n" + t.text)
  {
    UnmarshalEmpty();
    if UnmarshalObject(t.meta).Fields? {
      var js := UnmarshalObject(t.meta).fields;
      OnlyTagsPanic(SortedKeys(js.Keys), js);
    } else if UnmarshalObject(t.meta).NilMap? {
      NilMapFile(t);
    }
  }

  /** Only a `tags` value can make the loop panic. */
  lemma OnlyTagsPanic(keys: seq<string>, js: map<string, Value>)
    requires forall k :: k in keys <==> k in js
    ensures TidFields(keys, js).None? <==> "tags" in js && FieldText("tags", js["tags"]).Bad?
  {
    if "tags" in js && FieldText("tags", js["tags"]).Bad? {
      var i :| 0 <= i < |keys| && keys[i] == "tags";
    }
  }

  /** The text `null` gives a file named `<nil>.tid` with no header lines. */
  lemma NilMapFile(t: Store.Tiddler)
    requires UnmarshalObject(t.meta).NilMap?
    ensures Render(t) == File("<nil>.tid", "\n" + t.text)
  {
    UnmarshalEmpty();
    assert FileName(map[]) == "<nil>.tid";
    assert Header([]) == "";
  }

  /** A rendered file is named after the `title` field and reads back as a
      header line for every key that has one, in ascending key order, then
      the body verbatim. */
  lemma RenderedFile(t: Store.Tiddler)
    requires UnmarshalObject(t.meta).Fields? && Render(t).File?
    requires forall k :: k in UnmarshalObject(t.meta).fields ==> ':' !in k && '\n' !in k
    requires forall k :: k in UnmarshalObject(t.meta).fields && FieldText(k, UnmarshalObject(t.meta).fields[k]).Text? ==>
               '\n' !in FieldText(k, UnmarshalObject(t.meta).fields[k]).s
    ensures var js := UnmarshalObject(t.meta).fields;
            Render(t).name == FileName(js)
    ensures var js := UnmarshalObject(t.meta).fields;
            var f := ParseTid(Render(t).content);
            && f.Some?
            && f.value.body == t.text
            && (forall p :: p in f.value.fields <==> p.0 in js && FieldText(p.0, js[p.0]) == Text(p.1))
            && (forall i, j :: 0 <= i < j < |f.value.fields| ==>
                  Below(f.value.fields[i].0, f.value.fields[j].0) && f.value.fields[i].0 != f.value.fields[j].0)
  {
    var js := UnmarshalObject(t.meta).fields;
    var keys := SortedKeys(js.Keys);
    var fs := TidFields(keys, js).value;
    TidFieldsMembers(keys, js);
    TidFieldsSorted(keys, js);
    forall i | 0 <= i < |fs|
      ensures PlainField(fs[i])
    {
      assert fs[i] in fs;
    }
    ParseFormatted(fs, t.text);
  }

  /* ---------------------------------------------------------------------- */
  /* Rebuilding the tiddlers/ directory                                      */
  /* ---------------------------------------------------------------------- */

  /** The `tiddlers/` directory: file name to content. */
  type Tree = map<string, string>

  /** The directory after the render loop, and whether the loop panicked. */
  datatype Rebuild = Rebuild(tree: Tree, crashed: bool)

  predicate WritesTo(t: Store.Tiddler, name: string) {
    Render(t).File? && Render(t).name == name
  }

  /** `tree` after writing the file one record renders to, if any. */
  function Written(t: Store.Tiddler, tree: Tree): Tree {
    match Render(t)
    case File(n, c) => tree[n := c]
    case _ => tree
  }

  /** Writes the rendered files in scan order into `tree`; a later file of
      the same name replaces an earlier one; a panic stops the loop. */
  function WriteFiles(items: seq<Store.Tiddler>, tree: Tree): (r: Rebuild)
    ensures r.crashed <==> exists i :: 0 <= i < |items| && Render(items[i]).Crash?
    decreases |items|
  {
    if |items| == 0 then Rebuild(tree, false)
    else if Render(items[0]).Crash? then Rebuild(tree, true)
    else
      var r := WriteFiles(items[1..], Written(items[0], tree));
      assert forall i :: 1 <= i < |items| ==> items[i] == items[1..][i - 1];
      r
  }

  /** After a loop that does not panic, the directory holds the names it
      held before and those of the records written, and no others. */
  lemma {:induction false} WrittenNames(items: seq<Store.Tiddler>, tree: Tree)
    requires !WriteFiles(items, tree).crashed
    ensures forall n :: n in WriteFiles(items, tree).tree <==>
              n in tree || exists i :: 0 <= i < |items| && WritesTo(items[i], n)
    decreases |items|
  {
    if |items| > 0 {
      WriteStep(items, tree);
      WrittenNames(items[1..], Written(items[0], tree));
      forall n
        ensures (exists i :: 0 <= i < |items| && WritesTo(items[i], n)) <==>
                WritesTo(items[0], n) || exists i :: 0 <= i < |items| - 1 && WritesTo(items[1..][i], n)
      {
        WriterShift(items, n);
      }
    }
  }

  lemma WriterShift(items: seq<Store.Tiddler>, n: string)
    requires |items| > 0
    ensures (exists i :: 0 <= i < |items| && WritesTo(items[i], n)) <==>
            WritesTo(items[0], n) || exists i :: 0 <= i < |items| - 1 && WritesTo(items[1..][i], n)
  {
    if exists i :: 0 <= i < |items| && WritesTo(items[i], n) {
      var i :| 0 <= i < |items| && WritesTo(items[i], n);
      if i > 0 {
        assert items[1..][i - 1] == items[i];
      }
    }
  }

  /** Writing a single record. */
  lemma WriteOne(t: Store.Tiddler, tree: Tree)
    ensures WriteFiles([t], tree) ==
              match Render(t)
              case Skip => Rebuild(tree, false)
              case File(n, c) => Rebuild(tree[n := c], false)
              case Crash => Rebuild(tree, true)
  {
    assert [t][1..] == [];
  }

  /** A loop that does not panic gets past its first record. */
  lemma WriteStep(items: seq<Store.Tiddler>, tree: Tree)
    requires |items| > 0 && !WriteFiles(items, tree).crashed
    ensures !Render(items[0]).Crash?
    ensures WriteFiles(items, tree) == WriteFiles(items[1..], Written(items[0], tree))
  {
  }

  /** The content of each file is that of the last record rendered to its
      name. */
  lemma {:induction false} LastWriteWins(items: seq<Store.Tiddler>, tree: Tree, i: nat)
    requires i < |items| && Render(items[i]).File?
    requires !WriteFiles(items, tree).crashed
    requires forall j :: i < j < |items| ==> !WritesTo(items[j], Render(items[i]).name)
    ensures Render(items[i]).name in WriteFiles(items, tree).tree
    ensures WriteFiles(items, tree).tree[Render(items[i]).name] == Render(items[i]).content
    decreases |items|
  {
    var n := Render(items[i]).name;
    var next := Written(items[0], tree);
    WriteStep(items, tree);
    NotWrittenAfter(items, i, n);
    if i == 0 {
      KeptWhenNotWritten(items[1..], next, n);
    } else {
      assert items[1..][i - 1] == items[i];
      LastWriteWins(items[1..], next, i - 1);
    }
  }

  /** Dropping the first record keeps "nothing after `i` writes `n`". */
  lemma NotWrittenAfter(items: seq<Store.Tiddler>, i: nat, n: string)
    requires i < |items|
    requires forall j :: i < j < |items| ==> !WritesTo(items[j], n)
    ensures i == 0 ==> forall j :: 0 <= j < |items| - 1 ==> !WritesTo(items[1..][j], n)
    ensures i > 0 ==> forall j :: i - 1 < j < |items| - 1 ==> !WritesTo(items[1..][j], n)
  {
    forall j | 0 <= j < |items| - 1
      ensures items[1..][j] == items[j + 1]
    {
    }
  }

  /** A name no remaining record is rendered to keeps its content. */
  lemma {:induction false} KeptWhenNotWritten(items: seq<Store.Tiddler>, tree: Tree, n: string)
    requires n in tree
    requires !WriteFiles(items, tree).crashed
    requires forall j :: 0 <= j < |items| ==> !WritesTo(items[j], n)
    ensures n in WriteFiles(items, tree).tree && WriteFiles(items, tree).tree[n] == tree[n]
    decreases |items|
  {
    if |items| > 0 {
      var next := Written(items[0], tree);
      WriteStep(items, tree);
      NotWrittenAfter(items, 0, n);
      KeptWhenNotWritten(items[1..], next, n);
    }
  }

  /* ---------------------------------------------------------------------- */
  /* The clone and gitCommit                                                 */
  /* ---------------------------------------------------------------------- */

  /** The `tiddlers/` directory of the work tree, the tree of the last
      commit, the tree last pushed, and the number of commits made. */
  datatype Repo = Repo(work: Tree, head: Tree, remote: Tree, commits: nat)

  /** Which go-git calls of one run fail: staging, status, commit, reading
      the new commit back, push. */
  datatype GitFaults = GitFaults(stageFails: bool, statusFails: bool, commitFails: bool, lookupFails: bool, pushFails: bool)

  const NoGitFaults: GitFaults := GitFaults(false, false, false, false, false)

  datatype GitStage = Staging | Status | Committing | Lookup | Pushing

  datatype GitOutcome = UpToDate | Pushed | GitError(stage: GitStage)

  datatype CommitStep = CommitStep(repo: Repo, outcome: GitOutcome)

  /** Staging succeeds. `AddGlob` on the `tiddlers` directory fails when the
      call fails, and also when the directory is empty: go-git v5 answers a
      pattern that matches no file with `ErrGlobNoMatches`. */
  predicate Stages(repo: Repo, f: GitFaults) {
    !f.stageFails && repo.work != map[]
  }

  /** Staging and status succeed, the work tree differs from the last commit,
      and the commit succeeds. */
  predicate Commits(repo: Repo, f: GitFaults) {
    Stages(repo, f) && !f.statusFails && repo.work != repo.head && !f.commitFails
  }

  /** Stage everything, stop when the status is clean, otherwise commit and
      push. */
  function GitCommit(repo: Repo, f: GitFaults): (r: CommitStep)
    ensures r.repo.work == repo.work
    ensures Commits(repo, f) ==> r.repo.head == repo.work && r.repo.commits == repo.commits + 1
    ensures !Commits(repo, f) ==> r.repo.head == repo.head && r.repo.commits == repo.commits
    ensures r.outcome == Pushed <==> Commits(repo, f) && !f.lookupFails && !f.pushFails
    ensures r.outcome == Pushed ==> r.repo.remote == repo.work
    ensures r.outcome != Pushed ==> r.repo.remote == repo.remote
    ensures r.outcome == GitError(Pushing) ==> Commits(repo, f)
    ensures !Stages(repo, f) ==> r == CommitStep(repo, GitError(Staging))
    ensures Stages(repo, f) && !f.statusFails && repo.work == repo.head ==> r == CommitStep(repo, UpToDate)
  {
    if !Stages(repo, f) then CommitStep(repo, GitError(Staging))
    else if f.statusFails then CommitStep(repo, GitError(Status))
    else if repo.work == repo.head then CommitStep(repo, UpToDate)
    else if f.commitFails then CommitStep(repo, GitError(Committing))
    else
      var committed := repo.(head := repo.work, commits := repo.commits + 1);
      if f.lookupFails then CommitStep(committed, GitError(Lookup))
      else if f.pushFails then CommitStep(committed, GitError(Pushing))
      else CommitStep(committed.(remote := committed.head), Pushed)
  }

  /* ---------------------------------------------------------------------- */
  /* One mirror run                                                          */
  /* ---------------------------------------------------------------------- */

  /** Which calls of one run fail: clearing the directory, and go-git. */
  datatype MirrorFaults = MirrorFaults(clearFails: bool, git: GitFaults)

  datatype RunReply = Ok | HttpError(code: int) | Panic

  datatype Run = Run(repo: Repo, reply: RunReply)

  /** The directory a run writes for a scan, starting from an empty one. */
  function RenderTree(items: seq<Store.Tiddler>): Rebuild {
    WriteFiles(items, map[])
  }

  /** GET on the mirror: clear `tiddlers/`, write a file per rendered
      record, then commit and push; the outcome of the commit is not
      looked at. */
  function MirrorRun(repo: Repo, httpMethod: string, scan: Store.Scan, f: MirrorFaults): (r: Run)
    ensures httpMethod != "GET" ==> r == Run(repo, HttpError(405))
    ensures httpMethod == "GET" && f.clearFails ==> r == Run(repo, HttpError(500))
    ensures r.reply == Ok <==>
              httpMethod == "GET" && !f.clearFails && !RenderTree(scan.items).crashed && !scan.broken
    ensures r.reply == Panic <==> httpMethod == "GET" && !f.clearFails && RenderTree(scan.items).crashed
    ensures r.reply != Ok ==> r.repo.head == repo.head && r.repo.remote == repo.remote && r.repo.commits == repo.commits
    ensures r.reply == Ok ==> r.repo.work == RenderTree(scan.items).tree
  {
    if httpMethod != "GET" then Run(repo, HttpError(405))
    else if f.clearFails then Run(repo, HttpError(500))
    else
      var rebuilt := RenderTree(scan.items);
      var written := repo.(work := rebuilt.tree);
      if rebuilt.crashed then Run(written, Panic)
      else if scan.broken then Run(written, HttpError(500))
      else Run(GitCommit(written, f.git).repo, Ok)
  }

  /* ---------------------------------------------------------------------- */
  /* Properties of runs                                                      */
  /* ---------------------------------------------------------------------- */

  /** After a successful run the directory holds exactly the files of the
      records rendered in this scan, whatever it held before. */
  lemma RunRebuildsTree(repo: Repo, scan: Store.Scan, f: MirrorFaults)
    requires MirrorRun(repo, "GET", scan, f).reply == Ok
    ensures forall n :: n in MirrorRun(repo, "GET", scan, f).repo.work <==>
              exists i :: 0 <= i < |scan.items| && WritesTo(scan.items[i], n)
    ensures forall other: Repo :: MirrorRun(other, "GET", scan, f).repo.work == MirrorRun(repo, "GET", scan, f).repo.work
  {
    WrittenNames(scan.items, map[]);
  }

  /** The reply does not depend on whether staging, committing or pushing
      failed. */
  lemma OkDespiteGitErrors(repo: Repo, scan: Store.Scan, clearFails: bool, g: GitFaults)
    ensures MirrorRun(repo, "GET", scan, MirrorFaults(clearFails, g)).reply
         == MirrorRun(repo, "GET", scan, MirrorFaults(clearFails, NoGitFaults)).reply
  {
  }

  /** A run that commits leaves the work tree equal to the commit, so a
      second run over the same scan finds it clean and commits nothing. */
  lemma NoCommitAfterCommit(repo: Repo, scan: Store.Scan, f1: MirrorFaults, f2: MirrorFaults)
    requires MirrorRun(repo, "GET", scan, f1).repo.commits == repo.commits + 1
    ensures var r1 := MirrorRun(repo, "GET", scan, f1);
            var r2 := MirrorRun(r1.repo, "GET", scan, f2);
            r2.repo.commits == r1.repo.commits && r2.repo.head == r1.repo.head && r2.repo.remote == r1.repo.remote
  {
  }

  /** A run over a scan whose files are already committed makes no commit
      and pushes nothing. */
  lemma NoCommitWhenClean(repo: Repo, scan: Store.Scan, f: MirrorFaults)
    requires !RenderTree(scan.items).crashed
    requires repo.head == RenderTree(scan.items).tree
    ensures var r := MirrorRun(repo, "GET", scan, f);
            r.repo.commits == repo.commits && r.repo.head == repo.head && r.repo.remote == repo.remote
    ensures !f.clearFails && !scan.broken && !f.git.stageFails && !f.git.statusFails ==>
              MirrorRun(repo, "GET", scan, f).repo == repo.(work := repo.head)
  {
  }

  /** Two runs over an unchanged store make at most one commit between
      them, whatever fails. */
  lemma AtMostOneCommit(repo: Repo, scan: Store.Scan, f1: MirrorFaults, f2: MirrorFaults)
    ensures var r1 := MirrorRun(repo, "GET", scan, f1);
            MirrorRun(r1.repo, "GET", scan, f2).repo.commits <= repo.commits + 1
  {
    var r1 := MirrorRun(repo, "GET", scan, f1);
    if r1.repo.commits == repo.commits + 1 {
      NoCommitAfterCommit(repo, scan, f1, f2);
    }
  }

  /** A run over a scan that renders no file commits nothing: staging finds
      no file to add. So removing the last tiddler is never committed. */
  lemma EmptyTreeNotCommitted(repo: Repo, scan: Store.Scan, f: MirrorFaults)
    requires RenderTree(scan.items).tree == map[]
    ensures var r := MirrorRun(repo, "GET", scan, f);
            r.repo.commits == repo.commits && r.repo.head == repo.head && r.repo.remote == repo.remote
  {
  }

  /** A push that fails is not retried while the store is unchanged: the
      next run finds the work tree clean and stops before pushing. */
  lemma FailedPushNotRetried(repo: Repo, scan: Store.Scan, f1: MirrorFaults, f2: MirrorFaults)
    requires repo.remote == repo.head
    requires MirrorRun(repo, "GET", scan, f1).repo.commits == repo.commits + 1
    requires f1.git.pushFails
    ensures var r1 := MirrorRun(repo, "GET", scan, f1);
            var r2 := MirrorRun(r1.repo, "GET", scan, f2);
            && r1.repo.remote != r1.repo.head
            && r2.repo.remote == r1.repo.remote
  {
  }
}

=== FILE: scenario.dfy ===
/**
 A worked example through both halves: a tiddler `Alpha` with a body is put
 into an empty store, mirrored, deleted, and mirrored again.
 */
module Scenario {

  import opened Wrappers
  import opened Strings
  import opened Json
  import opened Store
  import opened Mirror

  /** The fields the client sends. */
  function AlphaFields(): map<string, Value> {
    map["title" := Str("Alpha"), "text" := Str("hello")]
  }

  /** The fields the store keeps for revision 1. */
  function AlphaStored(): map<string, Value> {
    map["bag" := Str("bag"), "revision" := Num(1), "title" := Str("Alpha")]
  }

  /** The file the mirror writes for it. */
  const AlphaFile: string := "bag: bag\n" + "revision: 1\n" + "title: Alpha\n" + "\n" + "hello"

  /** Putting `Alpha` into an empty store gives revision 1, the fields
      above as metadata and `hello` as the body. */
  lemma AlphaPut(body: string)
    requires UnmarshalObject(body) == Fields(AlphaFields())
    ensures var p := PutTiddler(Store(map[], map[]), "Alpha", body, true, NoFaults);
            && p.reply == Done(1)
            && UnmarshalObject(p.store.current["Alpha"].meta) == Fields(AlphaStored())
            && p.store.current["Alpha"].text == "hello"
  {
    PutStores(Store(map[], map[]), "Alpha", body, NoFaults);
    AlphaStoredFields();
  }

  lemma AlphaStoredFields()
    ensures StoredFields(AlphaFields(), 1) == AlphaStored()
  {
    var m := StoredFields(AlphaFields(), 1);
    assert m.Keys == AlphaStored().Keys;
    assert m["title"] == Str("Alpha");
  }

  lemma AlphaKeysSorted()
    ensures SortedKeys(AlphaStored().Keys) == ["bag", "revision", "title"]
  {
    var order := ["bag", "revision", "title"];
    assert Below("bag", "revision") && Below("revision", "title");
    BelowTransitive("bag", "revision", "title");
    assert StrictlySorted(order);
    assert forall k :: k in order <==> k in AlphaStored().Keys;
    SortedKeysCanonical(AlphaStored().Keys, order);
  }

  lemma AlphaTitleField()
    ensures TidFields(["title"], AlphaStored()) == Some([("title", "Alpha")])
  {
    var m := AlphaStored();
    assert TidFields([], m) == Some([]);
    TidFieldsCons("title", [], m, "Alpha", []);
    assert ["title"] + [] == ["title"] && [("title", "Alpha")] + [] == [("title", "Alpha")];
  }

  lemma AlphaRevisionField()
    ensures TidFields(["revision", "title"], AlphaStored()) == Some([("revision", "1"), ("title", "Alpha")])
  {
    var m := AlphaStored();
    assert Decimal(1) == "1";
    AlphaTitleField();
    TidFieldsCons("revision", ["title"], m, "1", [("title", "Alpha")]);
    assert ["revision"] + ["title"] == ["revision", "title"];
    assert [("revision", "1")] + [("title", "Alpha")] == [("revision", "1"), ("title", "Alpha")];
  }

  lemma AlphaAllFields()
    ensures TidFields(["bag", "revision", "title"], AlphaStored())
         == Some([("bag", "bag"), ("revision", "1"), ("title", "Alpha")])
  {
    AlphaRevisionField();
    TidFieldsCons("bag", ["revision", "title"], AlphaStored(), "bag", [("revision", "1"), ("title", "Alpha")]);
    assert ["bag"] + ["revision", "title"] == ["bag", "revision", "title"];
    assert [("bag", "bag")] + [("revision", "1"), ("title", "Alpha")] == [("bag", "bag"), ("revision", "1"), ("title", "Alpha")];
  }

  /** The header fields of the stored record, in key order. */
  lemma AlphaFieldsRendered()
    ensures TidFields(SortedKeys(AlphaStored().Keys), AlphaStored())
         == Some([("bag", "bag"), ("revision", "1"), ("title", "Alpha")])
  {
    AlphaKeysSorted();
    AlphaAllFields();
  }

  lemma AlphaName()
    ensures FileName(AlphaStored()) == "Alpha.tid"
  {
  }

  lemma AlphaFormatted()
    ensures FormatTid(TidFile([("bag", "bag"), ("revision", "1"), ("title", "Alpha")], "hello")) == AlphaFile
  {
    assert Line("bag", "bag") == "bag: bag\n";
    assert Line("revision", "1") == "revision: 1\n";
    assert Line("title", "Alpha") == "title: Alpha\n";
    var fs := [("bag", "bag"), ("revision", "1"), ("title", "Alpha")];
    assert fs[1..] == [("revision", "1"), ("title", "Alpha")];
    assert fs[1..][1..] == [("title", "Alpha")];
    assert fs[1..][1..][1..] == [];
    assert Header(fs) == "bag: bag\n" + ("revision: 1\n" + ("title: Alpha\n" + ""));
  }

  /** The stored record renders to `Alpha.tid`: the fields in key order, a
      blank line and the body. */
  lemma AlphaRendered(t: Tiddler)
    requires UnmarshalObject(t.meta) == Fields(AlphaStored()) && t.text == "hello"
    ensures Render(t) == File("Alpha.tid", AlphaFile)
  {
    UnmarshalEmpty();
    assert |t.meta| > 0;
    AlphaFieldsRendered();
    AlphaFormatted();
    AlphaName();
  }

  /** Tags are written as their words joined by a single space. */
  lemma TagsRendered()
    ensures FieldText("tags", Arr([Str("x"), Str("y")])) == Text("x y")
  {
    var tags := [Str("x"), Str("y")];
    assert tags[1..] == [Str("y")] && [Str("y")][1..] == [];
    assert TagWords([]) == Some([]);
    assert ["y"] + [] == ["y"];
    assert TagWords([Str("y")]) == Some(["y"]);
    assert ["x"] + ["y"] == ["x", "y"];
    assert ["x", "y"][1..] == ["y"];
  }

  /** Mirroring the stored record writes, commits and pushes `Alpha.tid`.
      Mirroring its tombstone afterwards empties the directory, so staging
      finds no file: the removal is never committed, and the last commit and
      the remote keep `Alpha.tid`. */
  lemma AlphaRuns(t: Tiddler, tomb: Tiddler)
    requires UnmarshalObject(t.meta) == Fields(AlphaStored()) && t.text == "hello"
    requires tomb.meta == ""
    ensures var r1 := MirrorRun(Repo(map[], map[], map[], 0), "GET", Scan([t], false), MirrorFaults(false, NoGitFaults));
            var r2 := MirrorRun(r1.repo, "GET", Scan([tomb], false), MirrorFaults(false, NoGitFaults));
            && r1.reply == Ok && r1.repo.work == map["Alpha.tid" := AlphaFile] && r1.repo.commits == 1
            && r1.repo.remote == r1.repo.work
            && r2.reply == Ok && r2.repo.work == map[] && r2.repo.commits == 1
            && r2.repo.head == r2.repo.remote == map["Alpha.tid" := AlphaFile]
  {
    AlphaTree(t);
    TombTree(tomb);
    assert map["Alpha.tid" := AlphaFile] != map[] by {
      assert "Alpha.tid" in map["Alpha.tid" := AlphaFile];
    }
  }

  lemma AlphaTree(t: Tiddler)
    requires UnmarshalObject(t.meta) == Fields(AlphaStored()) && t.text == "hello"
    ensures RenderTree([t]) == Rebuild(map["Alpha.tid" := AlphaFile], false)
  {
    AlphaRendered(t);
    WriteOne(t, map[]);
  }

  lemma TombTree(tomb: Tiddler)
    requires tomb.meta == ""
    ensures RenderTree([tomb]) == Rebuild(map[], false)
  {
    WriteOne(tomb, map[]);
  }

  /** The whole story: a client puts `Alpha`, the mirror commits its file,
      the client deletes it (revision 2), and the next mirror run empties the
      directory but commits nothing, so the mirror still holds `Alpha.tid`. */
  lemma AlphaMirrored(body: string)
    requires UnmarshalObject(body) == Fields(AlphaFields())
    ensures var p := PutTiddler(Store(map[], map[]), "Alpha", body, true, NoFaults);
            var r1 := MirrorRun(Repo(map[], map[], map[], 0), "GET", Scan([p.store.current["Alpha"]], false),
                                MirrorFaults(false, NoGitFaults));
            var d := DeleteTiddler(p.store, "Alpha", "DELETE", true, NoFaults);
            var r2 := MirrorRun(r1.repo, "GET", Scan([d.store.current["Alpha"]], false),
                                MirrorFaults(false, NoGitFaults));
            && r1.reply == Ok && r1.repo.work == map["Alpha.tid" := AlphaFile] && r1.repo.commits == 1
            && d.reply == Done(2)
            && r2.reply == Ok && r2.repo.work == map[] && r2.repo.commits == 1
            && r2.repo.head == r2.repo.remote == map["Alpha.tid" := AlphaFile]
  {
    AlphaPut(body);
    var p := PutTiddler(Store(map[], map[]), "Alpha", body, true, NoFaults);
    var d := DeleteTiddler(p.store, "Alpha", "DELETE", true, NoFaults);
    AlphaRuns(p.store.current["Alpha"], d.store.current["Alpha"]);
  }
}

=== FILE: store.dfy ===
/**
 The revisioned tiddler store of tiddly.go: the current record of every
 title, the history records written beside it, and the four request handlers
 that read and write them (put, delete, get and the listing of all tiddlers).

 The datastore is two maps: `current` holds the entities of kind `Tiddler`
 keyed by title, `history` those of kind `TiddlerHistory` keyed by
 `title#revision`. Each handler is a total function from the store (and the
 request) to the store after the request and the reply. A failing datastore
 call is an input (`Faults`), so that the partial writes the handlers can
 leave behind are part of the model.
 */
module Store {

  import opened Wrappers
  import opened Strings
  import opened Json

  /** One datastore entity: the revision, the metadata as JSON text (empty
      for a tombstone), the body, and a tag list the handlers never fill. */
  datatype Tiddler = Tiddler(rev: int, meta: string, text: string, tags: seq<string>)

  datatype Store = Store(current: map<string, Tiddler>, history: map<string, Tiddler>)

  /** The fixed owner name written into every stored tiddler. */
  const BagName: string := "bag"

  /** The tag that marks a macro tiddler, and the quoted form the listing
      searches the raw metadata for. */
  const MacroTag: string := "$:/tags/Macro"
  const MacroMarker: string := "\"" + MacroTag + "\""

  /** The key of a history record. */
  function HistoryKey(title: string, rev: int): string {
    title + "#" + Decimal(rev)
  }

  /** How a request fails. */
  datatype Failure =
    | PermissionDenied   // mustBeAdmin refused the caller
    | BadMethod          // an HTTP method the handler does not serve
    | LookupFailed       // datastore.Get failed: no such entity, or a read error
    | BadJson            // json.Unmarshal failed
    | NilMapWrite        // a write into the nil map `null` decodes to: a run-time panic
    | WriteFailed        // datastore.Put failed
    | ScanFailed         // the query iterator failed before it was done

  /** The HTTP status a failure is answered with; a panic sends none. */
  function StatusCode(f: Failure): Option<int> {
    match f
    case PermissionDenied => Some(403)
    case BadMethod => Some(405)
    case NilMapWrite => None
    case _ => Some(500)
  }

  datatype Reply<T> = Done(value: T) | Failed(failure: Failure)

  /** The store after a request, and the reply to it. */
  datatype Step<T> = Step(store: Store, reply: Reply<T>)

  /** Which datastore calls of one request fail: the read of the current
      record, the write of the current record, the write of the history
      record. */
  datatype Faults = Faults(readFails: bool, currentWriteFails: bool, historyWriteFails: bool)

  const NoFaults: Faults := Faults(false, false, false)

  /* ---------------------------------------------------------------------- */
  /* putTiddler and deleteTiddler                                            */
  /* ---------------------------------------------------------------------- */

  /** The metadata putTiddler stores: the caller's fields with `bag` and
      `revision` set and `text` taken out. */
  function StoredFields(js: map<string, Value>, rev: int): (m: map<string, Value>)
    ensures m.Keys == js.Keys - {"text"} + {"bag", "revision"}
    ensures m["bag"] == Str(BagName) && m["revision"] == Num(rev)
    ensures forall k :: k in js && k != "bag" && k != "revision" && k != "text" ==> m[k] == js[k]
  {
    js["bag" := Str(BagName)]["revision" := Num(rev)] - {"text"}
  }

  /** The body putTiddler stores: the caller's `text` when it is a string. */
  function BodyText(js: map<string, Value>): string {
    if "text" in js && js["text"].Str? then js["text"].s else ""
  }

  /** The record putTiddler builds for revision `rev`. */
  function NewRecord(js: map<string, Value>, rev: int): Tiddler {
    Tiddler(rev, Encode(Obj(StoredFields(js, rev))), BodyText(js), [])
  }

  /** The two datastore writes of a put or a delete: the current record,
      then the history record. A failure stops the sequence where it
      happens; nothing undoes the first write. */
  function WriteRecord(st: Store, title: string, t: Tiddler, faults: Faults): (r: Step<int>)
    ensures faults.currentWriteFails ==> r == Step(st, Failed(WriteFailed))
    ensures !faults.currentWriteFails ==> r.store.current == st.current[title := t]
    ensures faults.historyWriteFails ==> r.store.history == st.history && !r.reply.Done?
    ensures r.reply.Done? <==> !faults.currentWriteFails && !faults.historyWriteFails
    ensures r.reply.Done? ==>
              r.reply.value == t.rev && r.store.history == st.history[HistoryKey(title, t.rev) := t]
  {
    if faults.currentWriteFails then Step(st, Failed(WriteFailed))
    else
      var st1 := st.(current := st.current[title := t]);
      if faults.historyWriteFails then Step(st1, Failed(WriteFailed))
      else Step(st1.(history := st1.history[HistoryKey(title, t.rev) := t]), Done(t.rev))
  }

  /** The revision putTiddler gives a new record: one more than the current
      record's, or 1 when reading the current record fails for any reason. */
  function NextRevision(st: Store, title: string, faults: Faults): int {
    if !faults.readFails && title in st.current then st.current[title].rev + 1 else 1
  }

  /** PUT /recipes/all/tiddlers/{title} with a JSON object as the body, as
      the handler is written: a failed read of the current record counts as
      no record (see `PutTiddlerStrict`). */
  function PutTiddler(st: Store, title: string, body: string, admin: bool, faults: Faults): (r: Step<int>)
    ensures r.reply.Done? <==>
              admin && UnmarshalObject(body).Fields? && !faults.currentWriteFails && !faults.historyWriteFails
    ensures !admin || !UnmarshalObject(body).Fields? || faults.currentWriteFails ==> r.store == st
    ensures !admin ==> r.reply == Failed(PermissionDenied)
    ensures admin && UnmarshalObject(body).Malformed? ==> r.reply == Failed(BadJson)
    ensures admin && UnmarshalObject(body).NilMap? ==> r.reply == Failed(NilMapWrite)
    ensures r.reply.Done? && title !in st.current ==> r.reply.value == 1
    ensures r.reply.Done? && title in st.current && !faults.readFails ==>
              r.reply.value == st.current[title].rev + 1
    ensures faults.historyWriteFails ==> r.store.history == st.history
    ensures admin && UnmarshalObject(body).Fields? && !faults.currentWriteFails ==>
              r.store.current == st.current[title := NewRecord(UnmarshalObject(body).fields, NextRevision(st, title, faults))]
    ensures r.reply.Done? ==>
              && title in r.store.current
              && r.store.current[title].rev == r.reply.value
              && r.store.history == st.history[HistoryKey(title, r.reply.value) := r.store.current[title]]
    ensures forall other :: other != title ==>
              (other in r.store.current <==> other in st.current) &&
              (other in st.current ==> r.store.current[other] == st.current[other])
  {
    if !admin then Step(st, Failed(PermissionDenied))
    else
      match UnmarshalObject(body)
      case Malformed => Step(st, Failed(BadJson))
      case NilMap => Step(st, Failed(NilMapWrite))
      case Fields(js) => WriteRecord(st, title, NewRecord(js, NextRevision(st, title, faults)), faults)
  }

  /** A put that answers a failed read of the current record with an error
      instead of treating it as absence. A missing record still starts at
      revision 1. */
  function PutTiddlerStrict(st: Store, title: string, body: string, admin: bool, faults: Faults): (r: Step<int>)
    ensures !faults.readFails ==> r == PutTiddler(st, title, body, admin, faults)
    ensures faults.readFails ==> r.store == st && !r.reply.Done?
    ensures admin && UnmarshalObject(body).Fields? && faults.readFails ==> r.reply == Failed(LookupFailed)
    ensures r.reply.Done? ==> r.reply.value == if title in st.current then st.current[title].rev + 1 else 1
  {
    if admin && UnmarshalObject(body).Fields? && faults.readFails then Step(st, Failed(LookupFailed))
    else PutTiddler(st, title, body, admin, faults)
  }

  /** DELETE /bags/bag/tiddlers/{title}: writes a tombstone, the current
      record with its revision advanced and its metadata and body cleared. */
  function DeleteTiddler(st: Store, title: string, httpMethod: string, admin: bool, faults: Faults): (r: Step<int>)
    ensures r.reply.Done? <==>
              && admin && httpMethod == "DELETE" && !faults.readFails && title in st.current
              && !faults.currentWriteFails && !faults.historyWriteFails
    ensures !admin ==> r == Step(st, Failed(PermissionDenied))
    ensures admin && httpMethod != "DELETE" ==> r == Step(st, Failed(BadMethod))
    ensures admin && httpMethod == "DELETE" && (faults.readFails || title !in st.current) ==>
              r == Step(st, Failed(LookupFailed))
    ensures faults.currentWriteFails ==> r.store == st
    ensures faults.historyWriteFails ==> r.store.history == st.history
    ensures admin && httpMethod == "DELETE" && !faults.readFails && title in st.current && !faults.currentWriteFails ==>
              var prior := st.current[title];
              r.store.current == st.current[title := Tiddler(prior.rev + 1, "", "", prior.tags)]
    ensures r.reply.Done? ==>
              var prior := st.current[title];
              && title in r.store.current
              && r.reply.value == prior.rev + 1
              && r.store.current[title] == Tiddler(prior.rev + 1, "", "", prior.tags)
              && r.store.history == st.history[HistoryKey(title, prior.rev + 1) := r.store.current[title]]
    ensures forall other :: other != title ==>
              (other in r.store.current <==> other in st.current) &&
              (other in st.current ==> r.store.current[other] == st.current[other])
  {
    if !admin then Step(st, Failed(PermissionDenied))
    else if httpMethod != "DELETE" then Step(st, Failed(BadMethod))
    else if faults.readFails || title !in st.current then Step(st, Failed(LookupFailed))
    else
      var prior := st.current[title];
      WriteRecord(st, title, prior.(rev := prior.rev + 1, meta := "", text := ""), faults)
  }

  /* ---------------------------------------------------------------------- */
  /* getTiddler                                                              */
  /* ---------------------------------------------------------------------- */

  /** GET /recipes/all/tiddlers/{title}: the stored metadata with the body
      merged in under `text`, as JSON text. A failed read and a missing
      record are the same error. */
  function GetTiddler(st: Store, title: string, faults: Faults): (r: Reply<string>)
    ensures faults.readFails || title !in st.current ==> r == Failed(LookupFailed)
    ensures r.Done? ==> !faults.readFails && title in st.current
    ensures r == Failed(NilMapWrite) ==> title in st.current && st.current[title].meta == "null"
  {
    if faults.readFails || title !in st.current then Failed(LookupFailed)
    else
      var t := st.current[title];
      match UnmarshalObject(t.meta)
      case Malformed => Failed(BadJson)
      case NilMap => Failed(NilMapWrite)
      case Fields(js) => Done(Encode(Obj(js["text" := Str(t.text)])))
  }

  /** The method switch in front of get and put. */
  datatype Response = JsonText(text: string) | Revision(rev: int)

  /** The method switch in front of get and put, which calls the put as
      written. */
  function HandleTiddler(st: Store, httpMethod: string, title: string, body: string, admin: bool, faults: Faults)
    : (r: Step<Response>)
    ensures httpMethod != "PUT" ==> r.store == st
    ensures httpMethod != "GET" && httpMethod != "PUT" ==> r.reply == Failed(BadMethod)
    ensures httpMethod == "GET" ==> (r.reply.Done? <==> GetTiddler(st, title, faults).Done?)
    ensures httpMethod == "GET" && r.reply.Done? ==> r.reply.value == JsonText(GetTiddler(st, title, faults).value)
    ensures httpMethod == "PUT" ==> r.store == PutTiddler(st, title, body, admin, faults).store
    ensures httpMethod == "PUT" ==> (r.reply.Done? <==> PutTiddler(st, title, body, admin, faults).reply.Done?)
    ensures httpMethod == "PUT" && r.reply.Done? ==> r.reply.value == Revision(PutTiddler(st, title, body, admin, faults).reply.value)
  {
    Dispatch(st, httpMethod, GetTiddler(st, title, faults), PutTiddler(st, title, body, admin, faults))
  }

  /** The same switch calling the corrected put. */
  function HandleTiddlerStrict(st: Store, httpMethod: string, title: string, body: string, admin: bool, faults: Faults)
    : (r: Step<Response>)
    ensures !faults.readFails ==> r == HandleTiddler(st, httpMethod, title, body, admin, faults)
    ensures httpMethod != "PUT" ==> r == HandleTiddler(st, httpMethod, title, body, admin, faults)
    ensures httpMethod == "PUT" && faults.readFails ==> r.store == st
  {
    Dispatch(st, httpMethod, GetTiddler(st, title, faults), PutTiddlerStrict(st, title, body, admin, faults))
  }

  /** Routes a request to the reply of get or of put, or refuses its method. */
  function Dispatch(st: Store, httpMethod: string, get: Reply<string>, put: Step<int>): Step<Response> {
    if httpMethod == "GET" then
      match get
      case Done(s) => Step(st, Done(JsonText(s)))
      case Failed(f) => Step(st, Failed(f))
    else if httpMethod == "PUT" then
      match put.reply
      case Done(rev) => Step(put.store, Done(Revision(rev)))
      case Failed(f) => Step(put.store, Failed(f))
    else Step(st, Failed(BadMethod))
  }

  /* ---------------------------------------------------------------------- */
  /* tiddlerList                                                             */
  /* ---------------------------------------------------------------------- */

  /** The entities a datastore query returns, in its order, and whether the
      iterator then failed instead of reporting that it was done. */
  datatype Scan = Scan(items: seq<Tiddler>, broken: bool)

  /** A scan returns every current record exactly once: `titles` names the
      key of each scanned entity, each key appears once, and every key of
      the store appears. */
  ghost predicate ScanOf(scan: Scan, st: Store, titles: seq<string>) {
    && !scan.broken
    && |titles| == |scan.items|
    && (forall i, j :: 0 <= i < j < |titles| ==> titles[i] != titles[j])
    && (forall title :: title in st.current <==> title in titles)
    && (forall i :: 0 <= i < |titles| ==> titles[i] in st.current && scan.items[i] == st.current[titles[i]])
  }

  predicate IsMacro(meta: string) {
    Contains(meta, MacroMarker)
  }

  /** What the listing emits for one record, if anything: nothing for empty
      metadata; for macro tiddlers the metadata reparsed with the body
      merged in (nothing when it does not parse); the raw metadata
      otherwise. */
  function ListEntry(t: Tiddler): Option<string> {
    if |t.meta| == 0 then None
    else if IsMacro(t.meta) then
      match UnmarshalObject(t.meta)
      case Fields(js) => Some(Encode(Obj(js["text" := Str(t.text)])))
      case _ => None
    else Some(t.meta)
  }

  function ListEntries(items: seq<Tiddler>): (r: seq<string>)
    ensures |r| <= |items|
    decreases |items|
  {
    if |items| == 0 then []
    else
      match ListEntry(items[0])
      case Some(e) => [e] + ListEntries(items[1..])
      case None => ListEntries(items[1..])
  }

  /** The positions, from `from` on, of the scanned records that give an
      entry, in scan order. */
  function ListedPositions(items: seq<Tiddler>, from: nat): (r: seq<nat>)
    requires from <= |items|
    ensures forall k :: 0 <= k < |r| ==> from <= r[k] < |items| && ListEntry(items[r[k]]).Some?
    ensures forall k, j :: 0 <= k < j < |r| ==> r[k] < r[j]
    ensures forall i :: from <= i < |items| && ListEntry(items[i]).Some? ==> i in r
    decreases |items| - from
  {
    if from == |items| then []
    else if ListEntry(items[from]).Some? then [from] + ListedPositions(items, from + 1)
    else ListedPositions(items, from + 1)
  }

  /** GET /recipes/all/tiddlers.json: a JSON array of the entries. */
  function ListTiddlers(scan: Scan): (r: Reply<string>)
    ensures scan.broken <==> r == Failed(ScanFailed)
    ensures !scan.broken ==> r.Done?
  {
    if scan.broken then Failed(ScanFailed) else Done("[" + Join(ListEntries(scan.items), ",") + "]")
  }

  /* ---------------------------------------------------------------------- */
  /* Properties of the handlers                                              */
  /* ---------------------------------------------------------------------- */

  /** The listing holds one entry per scanned record that gives one, in scan
      order, and nothing else. */
  lemma ListEntriesInOrder(items: seq<Tiddler>)
    ensures var r := ListEntries(items);
            var at := ListedPositions(items, 0);
            && |r| == |at|
            && forall k :: 0 <= k < |r| ==> ListEntry(items[at[k]]) == Some(r[k])
  {
    assert items[0..] == items;
    ListEntriesFrom(items, 0);
  }

  lemma {:induction false} ListEntriesFrom(items: seq<Tiddler>, from: nat)
    requires from <= |items|
    ensures EntriesAt(items, ListEntries(items[from..]), ListedPositions(items, from))
    decreases |items| - from
  {
    if from < |items| {
      ListEntriesFrom(items, from + 1);
      var tail := ListEntries(items[from + 1..]);
      var later := ListedPositions(items, from + 1);
      assert items[from..][1..] == items[from + 1..];
      assert items[from..][0] == items[from];
      var e := ListEntry(items[from]);
      if e.Some? {
        assert ListEntries(items[from..]) == [e.value] + tail;
        assert ListedPositions(items, from) == [from] + later;
        EntriesAtCons(items, from, e.value, tail, later);
      } else {
        assert ListEntries(items[from..]) == tail;
        assert ListedPositions(items, from) == later;
      }
    }
  }

  /** `r` holds, in order, the entries of the records at positions `at`. */
  ghost predicate EntriesAt(items: seq<Tiddler>, r: seq<string>, at: seq<nat>) {
    && |r| == |at|
    && forall k :: 0 <= k < |r| ==> at[k] < |items| && ListEntry(items[at[k]]) == Some(r[k])
  }

  lemma EntriesAtCons(items: seq<Tiddler>, i: nat, e: string, r: seq<string>, at: seq<nat>)
    requires i < |items| && ListEntry(items[i]) == Some(e)
    requires EntriesAt(items, r, at)
    ensures EntriesAt(items, [e] + r, [i] + at)
  {
    forall k | 0 <= k < |r| + 1
      ensures ([i] + at)[k] < |items| && ListEntry(items[([i] + at)[k]]) == Some(([e] + r)[k])
    {
      if k > 0 {
        assert ([i] + at)[k] == at[k - 1];
        assert ([e] + r)[k] == r[k - 1];
      }
    }
  }

  /** History keys of distinct (title, revision) pairs are distinct: the
      digits of a revision never contain `#`. */
  lemma HistoryKeyInjective(t1: string, r1: int, t2: string, r2: int)
    requires HistoryKey(t1, r1) == HistoryKey(t2, r2)
    ensures t1 == t2 && r1 == r2
  {
    DecimalAlphabet(r1);
    DecimalAlphabet(r2);
    assert '#' !in Decimal(r1) && '#' !in Decimal(r2);
    SeparatedInjective(t1, Decimal(r1), t2, Decimal(r2), '#');
    DecimalInjective(r1, r2);
  }

  /** What a successful put stores under its title: metadata that parses
      back to the caller's fields with `bag` and `revision` overwritten and
      `text` removed, the caller's string `text` (or "") as the body, and no
      tags. */
  lemma PutStores(st: Store, title: string, body: string, faults: Faults)
    requires UnmarshalObject(body).Fields?
    requires !faults.currentWriteFails
    ensures var js := UnmarshalObject(body).fields;
            var t := PutTiddler(st, title, body, true, faults).store.current[title];
            && UnmarshalObject(t.meta) == Fields(StoredFields(js, t.rev))
            && t.rev == NextRevision(st, title, faults)
            && t.text == BodyText(js)
            && t.tags == []
  {
    var js := UnmarshalObject(body).fields;
    UnmarshalEncoded(StoredFields(js, NextRevision(st, title, faults)));
  }

  /** The same record is written to the current key and the history key. */
  lemma PutWritesHistory(st: Store, title: string, body: string, faults: Faults)
    requires PutTiddler(st, title, body, true, faults).reply.Done?
    ensures var r := PutTiddler(st, title, body, true, faults);
            r.store.history[HistoryKey(title, r.reply.value)] == r.store.current[title]
  {
  }

  /** Between the two writes there is no transaction: when only the history
      write fails, the new current record is in place with no history entry
      for its revision. */
  lemma PutHistoryGap(st: Store, title: string, body: string)
    requires UnmarshalObject(body).Fields?
    requires HistoryKey(title, NextRevision(st, title, Faults(false, false, true))) !in st.history
    ensures var r := PutTiddler(st, title, body, true, Faults(false, false, true));
            && r.reply == Failed(WriteFailed)
            && r.store.current[title].rev == NextRevision(st, title, NoFaults)
            && HistoryKey(title, r.store.current[title].rev) !in r.store.history
            && r.store.history == st.history
  {
  }

  /** When only the history write of a delete fails, the reply is an error,
      yet the tombstone stands with no history entry for its revision. */
  lemma DeleteHistoryGap(st: Store, title: string)
    requires title in st.current
    requires HistoryKey(title, st.current[title].rev + 1) !in st.history
    ensures var r := DeleteTiddler(st, title, "DELETE", true, Faults(false, false, true));
            && r.reply == Failed(WriteFailed)
            && r.store.current[title] == Tiddler(st.current[title].rev + 1, "", "", st.current[title].tags)
            && HistoryKey(title, st.current[title].rev + 1) !in r.store.history
  {
  }

  /** Get returns exactly the stored metadata with `text` set to the body,
      and fails for a failed read, a missing record or a tombstone. */
  lemma GetReturns(st: Store, title: string, faults: Faults)
    ensures GetTiddler(st, title, faults).Done? <==>
              !faults.readFails && title in st.current && UnmarshalObject(st.current[title].meta).Fields?
    ensures GetTiddler(st, title, faults).Done? ==>
              var t := st.current[title];
              Decode(GetTiddler(st, title, faults).value) == Some(Obj(UnmarshalObject(t.meta).fields["text" := Str(t.text)]))
    ensures !faults.readFails && title in st.current && st.current[title].meta == "" ==>
              GetTiddler(st, title, faults) == Failed(BadJson)
  {
    if !faults.readFails && title in st.current {
      var t := st.current[title];
      UnmarshalEmpty();
      if UnmarshalObject(t.meta).Fields? {
        DecodeEncode(Obj(UnmarshalObject(t.meta).fields["text" := Str(t.text)]));
      }
    }
  }

  /** A put followed by a get gives back the caller's fields with `bag` and
      `revision` injected and the body under `text`. */
  lemma GetAfterPut(st: Store, title: string, body: string)
    requires UnmarshalObject(body).Fields?
    ensures var js := UnmarshalObject(body).fields;
            var r := PutTiddler(st, title, body, true, NoFaults);
            && r.reply.Done?
            && GetTiddler(r.store, title, NoFaults).Done?
            && Decode(GetTiddler(r.store, title, NoFaults).value)
               == Some(Obj(StoredFields(js, r.reply.value)["text" := Str(BodyText(js))]))
  {
    PutStores(st, title, body, NoFaults);
    GetReturns(PutTiddler(st, title, body, true, NoFaults).store, title, NoFaults);
  }

  /** Through the method switch: a PUT answers with the new revision, and a
      GET that follows answers with the caller's fields, `bag` and
      `revision` injected and the body under `text`. */
  lemma HandlePutThenGet(st: Store, title: string, body: string)
    requires UnmarshalObject(body).Fields?
    ensures var js := UnmarshalObject(body).fields;
            var p := HandleTiddler(st, "PUT", title, body, true, NoFaults);
            var g := HandleTiddler(p.store, "GET", title, "", false, NoFaults);
            && p.reply == Done(Revision(NextRevision(st, title, NoFaults)))
            && g.store == p.store
            && g.reply.Done? && g.reply.value.JsonText?
            && Decode(g.reply.value.text)
               == Some(Obj(StoredFields(js, NextRevision(st, title, NoFaults))["text" := Str(BodyText(js))]))
  {
    GetAfterPut(st, title, body);
  }

  /** The HTTP status of each failing branch of the switch: 405 for another
      method, 403 for a PUT by a non-admin, and 500 for every other failure
      except the nil-map panic, which sends none. */
  lemma HandleStatus(st: Store, httpMethod: string, title: string, body: string, admin: bool, faults: Faults)
    ensures var r := HandleTiddler(st, httpMethod, title, body, admin, faults);
            && (httpMethod != "GET" && httpMethod != "PUT" ==> StatusCode(r.reply.failure) == Some(405))
            && (httpMethod == "PUT" && !admin ==> StatusCode(r.reply.failure) == Some(403))
            && (r.reply.Failed? && r.reply.failure == NilMapWrite ==> StatusCode(r.reply.failure) == None)
            && ((httpMethod == "GET" || (httpMethod == "PUT" && admin)) && r.reply.Failed? && r.reply.failure != NilMapWrite ==>
                  StatusCode(r.reply.failure) == Some(500))
  {
    var r := HandleTiddler(st, httpMethod, title, body, admin, faults);
    if httpMethod == "PUT" && admin && r.reply.Failed? {
      var p := PutTiddler(st, title, body, admin, faults);
      assert r.reply.failure == p.reply.failure;
      assert p.reply.failure != PermissionDenied && p.reply.failure != BadMethod;
    }
  }

  /** A PUT of an existing title whose read fails: the switch as written
      answers with revision 1, the corrected one with an error and no write. */
  lemma HandleReadFault(st: Store, title: string, body: string)
    requires title in st.current && UnmarshalObject(body).Fields?
    ensures var f := Faults(true, false, false);
            && HandleTiddler(st, "PUT", title, body, true, f).reply == Done(Revision(1))
            && HandleTiddlerStrict(st, "PUT", title, body, true, f) == Step(st, Failed(LookupFailed))
  {
  }

  /** A delete's tombstone is skipped by the listing and refused by get. */
  lemma DeletedIsHidden(st: Store, title: string, faults: Faults)
    requires DeleteTiddler(st, title, "DELETE", true, faults).reply.Done?
    ensures var after := DeleteTiddler(st, title, "DELETE", true, faults).store;
            && ListEntry(after.current[title]) == None
            && GetTiddler(after, title, NoFaults) == Failed(BadJson)
  {
    GetReturns(DeleteTiddler(st, title, "DELETE", true, faults).store, title, NoFaults);
  }

  /** Revision lineage survives a tombstone: a put after a delete gets the
      tombstone's revision plus one, and a fresh record without tags. */
  lemma PutAfterDelete(st: Store, title: string, body: string)
    requires title in st.current
    requires UnmarshalObject(body).Fields?
    ensures var d := DeleteTiddler(st, title, "DELETE", true, NoFaults);
            var p := PutTiddler(d.store, title, body, true, NoFaults);
            && d.reply == Done(st.current[title].rev + 1)
            && p.reply == Done(st.current[title].rev + 2)
            && p.store.current[title].tags == []
  {
    var d := DeleteTiddler(st, title, "DELETE", true, NoFaults);
    assert d.store.current[title].rev == st.current[title].rev + 1;
    PutStores(d.store, title, body, NoFaults);
  }

  /** The listing never writes into a nil map: metadata that mentions the
      macro marker is never the text `null`. */
  lemma MacroMetaNotNull(meta: string)
    requires IsMacro(meta)
    ensures !UnmarshalObject(meta).NilMap?
  {
    var i :| 0 <= i <= |meta| - |MacroMarker| && OccursAt(meta, MacroMarker, i);
    UnmarshalNull(meta);
  }

  /** What each record contributes to the listing. */
  lemma ListEntryCases(t: Tiddler)
    ensures |t.meta| == 0 ==> ListEntry(t) == None
    ensures |t.meta| > 0 && !IsMacro(t.meta) ==> ListEntry(t) == Some(t.meta)
    ensures IsMacro(t.meta) ==>
              (ListEntry(t).Some? <==> UnmarshalObject(t.meta).Fields?)
    ensures IsMacro(t.meta) && ListEntry(t).Some? ==>
              Decode(ListEntry(t).value) == Some(Obj(UnmarshalObject(t.meta).fields["text" := Str(t.text)]))
  {
    if IsMacro(t.meta) && UnmarshalObject(t.meta).Fields? {
      assert |t.meta| > 0 by {
        assert |MacroMarker| > 0;
      }
      DecodeEncode(Obj(UnmarshalObject(t.meta).fields["text" := Str(t.text)]));
    }
  }

  /** Escaping leaves a string without quotes, backslashes or line breaks
      unchanged. */
  lemma {:induction false} EscapePlain(s: string)
    requires forall i :: 0 <= i < |s| ==> EscapeLetter(s[i]).None? && !NeedsHexEscape(s[i])
    ensures Escape(s) == s
    decreases |s|
  {
    if |s| > 0 {
      EscapePlain(s[1..]);
      assert s == [s[0]] + s[1..];
    }
  }

  /** The marker the listing looks for is the JSON encoding of the tag. */
  lemma MarkerIsQuotedTag()
    ensures Encode(Str(MacroTag)) == MacroMarker
  {
    TagIsPlain();
  }

  lemma TagIsPlain()
    ensures Escape(MacroTag) == MacroTag
  {
    forall i | 0 <= i < |MacroTag|
      ensures EscapeLetter(MacroTag[i]).None? && !NeedsHexEscape(MacroTag[i])
    {
      assert MacroTag[i] in "$:/tagsMcro";
    }
    EscapePlain(MacroTag);
  }

  /** The encoding of an array contains the encoding of each element. */
  lemma ArrayContainsItem(items: seq<Value>, i: nat)
    requires i < |items|
    ensures Contains(Encode(Arr(items)), Encode(items[i]))
  {
    var parts := EncodeAll(items, Arr(items));
    JoinContainsPart(parts, ",", i);
    ContainsMiddle("[", Join(parts, ","), "]");
    ContainsTransitive(Encode(Arr(items)), Join(parts, ","), parts[i]);
  }

  /** The encoding of an object contains the encoding of each member. */
  lemma ObjectContainsMember(m: map<string, Value>, k: string)
    requires k in m
    ensures Contains(Encode(Obj(m)), Quote(k) + ":" + Encode(m[k]))
  {
    var keys := SortedKeys(m.Keys);
    var j :| 0 <= j < |keys| && keys[j] == k;
    var parts := EncodeMembers(keys, m, Obj(m));
    JoinContainsPart(parts, ",", j);
    ContainsMiddle("{", Join(parts, ","), "}");
    ContainsTransitive(Encode(Obj(m)), Join(parts, ","), parts[j]);
  }

  /** A record whose metadata carries the macro tag in its `tags` array is
      recognised as a macro by the listing. */
  lemma MacroTagIsMarked(m: map<string, Value>, tags: seq<Value>, i: nat)
    requires "tags" in m && m["tags"] == Arr(tags)
    requires i < |tags| && tags[i] == Str(MacroTag)
    ensures IsMacro(Encode(Obj(m)))
  {
    MarkerIsQuotedTag();
    assert Encode(tags[i]) == MacroMarker;
    ArrayContainsItem(tags, i);
    var member := Quote("tags") + ":" + Encode(Arr(tags));
    ContainsMiddle(Quote("tags") + ":", Encode(Arr(tags)), "");
    assert Quote("tags") + ":" + Encode(Arr(tags)) + "" == member;
    ContainsTransitive(member, Encode(Arr(tags)), MacroMarker);
    ObjectContainsMember(m, "tags");
    ContainsTransitive(Encode(Obj(m)), member, MacroMarker);
  }

  /** A macro-tagged record appears in the listing with its body inlined. */
  lemma MacroListedWithBody(t: Tiddler, m: map<string, Value>, tags: seq<Value>, i: nat)
    requires t.meta == Encode(Obj(m))
    requires "tags" in m && m["tags"] == Arr(tags)
    requires i < |tags| && tags[i] == Str(MacroTag)
    ensures ListEntry(t).Some?
    ensures Decode(ListEntry(t).value) == Some(Obj(m["text" := Str(t.text)]))
  {
    MacroTagIsMarked(m, tags, i);
    UnmarshalEncoded(m);
    ListEntryCases(t);
  }

  /* ---------------------------------------------------------------------- */
  /* The shape of stored records, and what the listing decodes to            */
  /* ---------------------------------------------------------------------- */

  /** Every record the handlers write is a tombstone or carries the encoding
      of an object without `text` (the body lives beside it). */
  predicate WellStored(t: Tiddler) {
    || t.meta == ""
    || (match UnmarshalObject(t.meta)
        case Fields(m) => t.meta == Encode(Obj(m)) && "text" !in m
        case _ => false)
  }

  ghost predicate StoreWellFormed(st: Store) {
    forall title :: title in st.current ==> WellStored(st.current[title])
  }

  lemma PutKeepsWellFormed(st: Store, title: string, body: string, admin: bool, faults: Faults)
    requires StoreWellFormed(st)
    ensures StoreWellFormed(PutTiddler(st, title, body, admin, faults).store)
    ensures StoreWellFormed(PutTiddlerStrict(st, title, body, admin, faults).store)
  {
    if admin && UnmarshalObject(body).Fields? {
      var t := NewRecord(UnmarshalObject(body).fields, NextRevision(st, title, faults));
      NewRecordWellStored(UnmarshalObject(body).fields, NextRevision(st, title, faults));
      WriteKeepsWellFormed(st, title, t, faults);
    }
  }

  /** A record put writes is well stored. */
  lemma NewRecordWellStored(js: map<string, Value>, rev: int)
    ensures WellStored(NewRecord(js, rev))
  {
    UnmarshalEncoded(StoredFields(js, rev));
  }

  lemma WriteKeepsWellFormed(st: Store, title: string, t: Tiddler, faults: Faults)
    requires StoreWellFormed(st) && WellStored(t)
    ensures StoreWellFormed(WriteRecord(st, title, t, faults).store)
  {
  }

  lemma DeleteKeepsWellFormed(st: Store, title: string, httpMethod: string, admin: bool, faults: Faults)
    requires StoreWellFormed(st)
    ensures StoreWellFormed(DeleteTiddler(st, title, httpMethod, admin, faults).store)
  {
  }

  /** The value a record contributes to the listing, if any. */
  function ListedValue(t: Tiddler): Option<Value> {
    if t.meta == "" then None
    else
      match UnmarshalObject(t.meta)
      case Fields(m) => Some(if IsMacro(t.meta) then Obj(m["text" := Str(t.text)]) else Obj(m))
      case _ => None
  }

  function ListedValues(items: seq<Tiddler>): (r: seq<Value>)
    decreases |items|
  {
    if |items| == 0 then []
    else
      match ListedValue(items[0])
      case Some(v) => [v] + ListedValues(items[1..])
      case None => ListedValues(items[1..])
  }

  /** The listed values are those of the scanned records, and no others. */
  lemma {:induction false} ListedValuesMembers(items: seq<Tiddler>)
    ensures forall v :: v in ListedValues(items) <==> exists t :: t in items && ListedValue(t) == Some(v)
    decreases |items|
  {
    if |items| > 0 {
      ListedValuesMembers(items[1..]);
      assert forall t :: t in items <==> t == items[0] || t in items[1..];
    }
  }

  /** A well-stored record's listed value: an object, holding `text` exactly
      when the record is a macro. */
  lemma ListedValueShape(t: Tiddler)
    requires WellStored(t)
    ensures t.meta == "" <==> ListedValue(t).None?
    ensures ListedValue(t).Some? ==>
              && ListedValue(t).value.Obj?
              && ("text" in ListedValue(t).value.fields <==> IsMacro(t.meta))
              && (IsMacro(t.meta) ==> ListedValue(t).value.fields["text"] == Str(t.text))
  {
  }

  /** On well-stored records each emitted entry is the encoding of the
      record's listed value. */
  lemma {:induction false} EntriesEncodeValues(items: seq<Tiddler>)
    requires forall i :: 0 <= i < |items| ==> WellStored(items[i])
    ensures |ListEntries(items)| == |ListedValues(items)|
    ensures forall i :: 0 <= i < |ListEntries(items)| ==> ListEntries(items)[i] == Encode(ListedValues(items)[i])
    decreases |items|
  {
    if |items| > 0 {
      EntriesEncodeValues(items[1..]);
      EntryEncodesValue(items[0]);
      if ListEntry(items[0]).Some? {
        ConsEncodes(ListEntry(items[0]).value, ListEntries(items[1..]),
                    ListedValue(items[0]).value, ListedValues(items[1..]));
      }
    }
  }

  /** A well-stored record has an entry exactly when it has a listed value,
      and the entry is that value's encoding. */
  lemma EntryEncodesValue(t: Tiddler)
    requires WellStored(t)
    ensures ListEntry(t).Some? <==> ListedValue(t).Some?
    ensures ListEntry(t).Some? ==> ListEntry(t).value == Encode(ListedValue(t).value)
  {
    if t.meta != "" {
      var m := UnmarshalObject(t.meta).fields;
      assert t.meta == Encode(Obj(m));
    }
  }

  lemma ConsEncodes(e: string, es: seq<string>, v: Value, vs: seq<Value>)
    requires e == Encode(v)
    requires |es| == |vs| && forall i :: 0 <= i < |es| ==> es[i] == Encode(vs[i])
    ensures |[e] + es| == |[v] + vs|
    ensures forall i :: 0 <= i < |[e] + es| ==> ([e] + es)[i] == Encode(([v] + vs)[i])
  {
  }

  /** The listing of a well-formed scan is a JSON array of the listed
      values, in scan order. */
  lemma ListingDecodes(items: seq<Tiddler>)
    requires forall i :: 0 <= i < |items| ==> WellStored(items[i])
    ensures Decode(ListTiddlers(Scan(items, false)).value) == Some(Arr(ListedValues(items)))
  {
    ListingText(items);
    DecodeEncode(Arr(ListedValues(items)));
  }

  lemma ListingText(items: seq<Tiddler>)
    requires forall i :: 0 <= i < |items| ==> WellStored(items[i])
    ensures ListTiddlers(Scan(items, false)) == Done(Encode(Arr(ListedValues(items))))
  {
    EntriesAreEncodings(items);
  }

  lemma EntriesAreEncodings(items: seq<Tiddler>)
    requires forall i :: 0 <= i < |items| ==> WellStored(items[i])
    ensures ListEntries(items) == EncodeAll(ListedValues(items), Arr(ListedValues(items)))
  {
    var vals := ListedValues(items);
    EntriesEncodeValues(items);
    SameEncodings(ListEntries(items), vals, EncodeAll(vals, Arr(vals)));
  }

  lemma SameEncodings(e: seq<string>, vals: seq<Value>, x: seq<string>)
    requires |e| == |vals| == |x|
    requires forall i :: 0 <= i < |vals| ==> e[i] == Encode(vals[i]) && x[i] == Encode(vals[i])
    ensures e == x
  {
  }

  /** What a full listing of a well-formed store holds: a value for every
      record that is not a tombstone, and nothing else. */
  lemma ListingOfStore(st: Store, scan: Scan, titles: seq<string>)
    requires StoreWellFormed(st) && ScanOf(scan, st, titles)
    ensures ListTiddlers(scan).Done?
    ensures Decode(ListTiddlers(scan).value) == Some(Arr(ListedValues(scan.items)))
    ensures forall v :: v in ListedValues(scan.items) <==>
              exists title :: title in st.current && ListedValue(st.current[title]) == Some(v)
  {
    forall i | 0 <= i < |scan.items|
      ensures WellStored(scan.items[i])
    {
      assert scan.items[i] == st.current[titles[i]];
    }
    ListingDecodes(scan.items);
    ListedValuesMembers(scan.items);
    forall title | title in st.current
      ensures st.current[title] in scan.items
    {
      var i :| 0 <= i < |titles| && titles[i] == title;
      assert scan.items[i] == st.current[title];
    }
  }
}

=== FILE: strings.dfy ===
/**
 Text utilities the two services lean on: the byte-wise string order that
 Go's `sort.Strings` uses, a sort of a finite key set into that order,
 `strings.Join`, `strings.Contains`, and the decimal rendering of an `int`
 that `fmt.Sprint` produces, together with its inverse.

 Strings are sequences of Unicode code points; comparing code points gives the
 same order as comparing their UTF-8 bytes, which is what Go compares.
 */
module Strings {

  import opened Wrappers

  /* ---------------------------------------------------------------------- */
  /* Lexicographic order                                                     */
  /* ---------------------------------------------------------------------- */

  /** `a <= b` in lexicographic order: a prefix comes first, otherwise the
      first differing character decides. */
  predicate Below(a: string, b: string)
    decreases |a|
  {
    |a| == 0 || (|b| > 0 && (a[0] < b[0] || (a[0] == b[0] && Below(a[1..], b[1..]))))
  }

  lemma {:induction false} BelowReflexive(a: string)
    ensures Below(a, a)
    decreases |a|
  {
    if |a| > 0 {
      BelowReflexive(a[1..]);
    }
  }

  lemma {:induction false} BelowAntisymmetric(a: string, b: string)
    requires Below(a, b) && Below(b, a)
    ensures a == b
    decreases |a|
  {
    if |a| > 0 {
      assert |b| > 0 && a[0] == b[0];
      BelowAntisymmetric(a[1..], b[1..]);
      assert a == [a[0]] + a[1..] && b == [b[0]] + b[1..];
    }
  }

  lemma {:induction false} BelowTransitive(a: string, b: string, c: string)
    requires Below(a, b) && Below(b, c)
    ensures Below(a, c)
    decreases |a|
  {
    if |a| > 0 && a[0] == b[0] && b[0] == c[0] {
      BelowTransitive(a[1..], b[1..], c[1..]);
    }
  }

  lemma {:induction false} BelowTotal(a: string, b: string)
    ensures Below(a, b) || Below(b, a)
    decreases |a|
  {
    if |a| > 0 && |b| > 0 && a[0] == b[0] {
      BelowTotal(a[1..], b[1..]);
    }
  }

  /** Two strings that are each below the other are equal. */
  lemma BelowAntisymmetricAll()
    ensures forall a, b :: Below(a, b) && Below(b, a) ==> a == b
  {
    forall a, b | Below(a, b) && Below(b, a)
      ensures a == b
    {
      BelowAntisymmetric(a, b);
    }
  }

  /* ---------------------------------------------------------------------- */
  /* Sorting a key set (sort.Strings over the keys of a map)                 */
  /* ---------------------------------------------------------------------- */

  predicate IsLeast(k: string, s: set<string>) {
    k in s && forall j :: j in s ==> Below(k, j)
  }

  /** Strictly ascending: sorted and free of duplicates. */
  ghost predicate StrictlySorted(r: seq<string>) {
    forall i, j :: 0 <= i < j < |r| ==> Below(r[i], r[j]) && r[i] != r[j]
  }

  lemma {:induction false} LeastExists(s: set<string>)
    requires s != {}
    ensures exists k :: IsLeast(k, s)
    decreases |s|
  {
    var x :| x in s;
    if s - {x} == {} {
      assert s == {x};
      BelowReflexive(x);
      assert IsLeast(x, s);
    } else {
      LeastExists(s - {x});
      var y :| IsLeast(y, s - {x});
      BelowTotal(x, y);
      if Below(x, y) {
        forall j | j in s
          ensures Below(x, j)
        {
          if j == x {
            BelowReflexive(x);
          } else {
            BelowTransitive(x, y, j);
          }
        }
        assert IsLeast(x, s);
      } else {
        assert IsLeast(y, s);
      }
    }
  }

  /** The keys of a finite set in ascending order, each exactly once: the
      result of collecting a map's keys in any order and applying
      `sort.Strings`. */
  function SortedKeys(s: set<string>): (r: seq<string>)
    ensures |r| == |s|
    ensures forall k :: k in r <==> k in s
    ensures StrictlySorted(r)
    decreases |s|
  {
    if s == {} then []
    else
      LeastExists(s);
      BelowAntisymmetricAll();
      var k :| IsLeast(k, s);
      var rest := SortedKeys(s - {k});
      LeastFirst(k, s, rest);
      [k] + rest
  }

  /** The least key followed by the rest sorted is the whole set sorted. */
  lemma LeastFirst(k: string, s: set<string>, rest: seq<string>)
    requires IsLeast(k, s)
    requires |rest| == |s - {k}| && (forall x :: x in rest <==> x in s - {k}) && StrictlySorted(rest)
    ensures |[k] + rest| == |s| && (forall x :: x in [k] + rest <==> x in s) && StrictlySorted([k] + rest)
  {
    assert forall i :: 0 <= i < |rest| ==> rest[i] in s - {k};
  }

  /** A strictly ascending arrangement of a key set is unique: whatever order
      the keys were collected in, sorting them gives the same sequence. */
  lemma {:induction false} StrictlySortedUnique(a: seq<string>, b: seq<string>)
    requires StrictlySorted(a) && StrictlySorted(b)
    requires forall k :: k in a <==> k in b
    ensures a == b
    decreases |a|
  {
    if |a| == 0 {
      HeadIsMember(b);
    } else {
      assert a[0] in b;
      assert |b| > 0;
      assert b[0] in a;
      var i :| 0 <= i < |a| && a[i] == b[0];
      var j :| 0 <= j < |b| && b[j] == a[0];
      assert i == 0 || Below(a[0], a[i]);
      assert j == 0 || Below(b[0], b[j]);
      if i != 0 {
        BelowAntisymmetric(a[0], b[0]);
      }
      assert a[0] == b[0];
      forall k
        ensures k in a[1..] <==> k in b[1..]
      {
        if k in a[1..] {
          var p :| 1 <= p < |a| && a[p] == k;
          assert k != a[0];
          assert k in b;
        }
        if k in b[1..] {
          var p :| 1 <= p < |b| && b[p] == k;
          assert k != b[0];
          assert k in a;
        }
      }
      StrictlySortedUnique(a[1..], b[1..]);
      assert a == [a[0]] + a[1..] && b == [b[0]] + b[1..];
    }
  }

  lemma HeadIsMember(b: seq<string>)
    ensures |b| == 0 || b[0] in b
  {
  }

  /** `sort.Strings` applied to the keys of a map gathered in ANY iteration
      order yields the same sequence. */
  lemma SortedKeysCanonical(s: set<string>, order: seq<string>)
    requires StrictlySorted(order)
    requires forall k :: k in order <==> k in s
    ensures order == SortedKeys(s)
  {
    StrictlySortedUnique(order, SortedKeys(s));
  }

  /* ---------------------------------------------------------------------- */
  /* Join and Contains                                                       */
  /* ---------------------------------------------------------------------- */

  /** `strings.Join(parts, sep)`. */
  function Join(parts: seq<string>, sep: string): string
    decreases |parts|
  {
    if |parts| == 0 then ""
    else if |parts| == 1 then parts[0]
    else parts[0] + sep + Join(parts[1..], sep)
  }

  /** `sub` occurs in `s` starting at index `i`. */
  predicate OccursAt(s: string, sub: string, i: int) {
    0 <= i <= |s| - |sub| && s[i..i + |sub|] == sub
  }

  /** `strings.Contains(s, sub)`. */
  predicate Contains(s: string, sub: string) {
    exists i | 0 <= i <= |s| - |sub| :: OccursAt(s, sub, i)
  }

  /** A middle piece occurs in the whole. */
  lemma ContainsMiddle(a: string, b: string, c: string)
    ensures Contains(a + b + c, b)
  {
    assert (a + b + c)[|a|..|a| + |b|] == b;
    assert OccursAt(a + b + c, b, |a|);
  }

  lemma ContainsTransitive(s: string, t: string, u: string)
    requires Contains(s, t) && Contains(t, u)
    ensures Contains(s, u)
  {
    var i :| 0 <= i <= |s| - |t| && OccursAt(s, t, i);
    var j :| 0 <= j <= |t| - |u| && OccursAt(t, u, j);
    assert 0 <= i <= |s| - |t| && s[i..i + |t|] == t;
    assert 0 <= j <= |t| - |u| && t[j..j + |u|] == u;
    forall k | 0 <= k < |u|
      ensures s[i + j..i + j + |u|][k] == u[k]
    {
      assert s[i + j..i + j + |u|][k] == s[i + j + k] == t[j + k] == u[k];
    }
    assert s[i + j..i + j + |u|] == u;
    assert OccursAt(s, u, i + j);
  }

  /** Every part occurs in a join of the parts. */
  lemma {:induction false} JoinContainsPart(parts: seq<string>, sep: string, i: nat)
    requires i < |parts|
    ensures Contains(Join(parts, sep), parts[i])
    decreases |parts|
  {
    if |parts| == 1 {
      ContainsMiddle("", parts[0], "");
      assert "" + parts[0] + "" == parts[0];
    } else if i == 0 {
      ContainsMiddle("", parts[0], sep + Join(parts[1..], sep));
      assert "" + parts[0] + (sep + Join(parts[1..], sep)) == Join(parts, sep);
    } else {
      JoinContainsPart(parts[1..], sep, i - 1);
      ContainsMiddle(parts[0] + sep, Join(parts[1..], sep), "");
      assert parts[0] + sep + Join(parts[1..], sep) + "" == Join(parts, sep);
      ContainsTransitive(Join(parts, sep), Join(parts[1..], sep), parts[i]);
    }
  }

  /* ---------------------------------------------------------------------- */
  /* Decimal numerals (fmt.Sprint of an int) and their reading               */
  /* ---------------------------------------------------------------------- */

  predicate IsDigit(c: char) {
    '0' <= c <= '9'
  }

  function DigitChar(d: nat): (c: char)
    requires d < 10
    ensures IsDigit(c) && DigitValue(c) == d
  {
    ('0' as int + d) as char
  }

  function DigitValue(c: char): nat
    requires IsDigit(c)
  {
    (c - '0') as nat
  }

  /** The base-10 digits of `n`, most significant first, without leading
      zeros. */
  function Digits(n: nat): string
    decreases n
  {
    if n < 10 then [DigitChar(n)] else Digits(n / 10) + [DigitChar(n % 10)]
  }

  /** `fmt.Sprint(n)` for an integer: a minus sign, then the digits. */
  function Decimal(n: int): string {
    if n < 0 then "-" + Digits(-n) else Digits(n)
  }

  predicate AllDigits(s: string) {
    forall i :: 0 <= i < |s| ==> IsDigit(s[i])
  }

  /** The number a run of digits denotes. */
  function DigitsValue(s: string): nat
    requires AllDigits(s)
    decreases |s|
  {
    if |s| == 0 then 0 else 10 * DigitsValue(s[..|s| - 1]) + DigitValue(s[|s| - 1])
  }

  /** The digits of a number are a non-empty run of digits that reads back as
      the number. */
  lemma {:induction false} DigitsRoundTrip(n: nat)
    ensures |Digits(n)| > 0 && AllDigits(Digits(n))
    ensures DigitsValue(Digits(n)) == n
    decreases n
  {
    if n >= 10 {
      DigitsRoundTrip(n / 10);
      var d := Digits(n);
      assert d == Digits(n / 10) + [DigitChar(n % 10)];
      assert d[..|d| - 1] == Digits(n / 10);
      assert DigitsValue(d) == 10 * (n / 10) + n % 10;
    }
  }

  /** A numeral of two or more digits does not start with `0`. */
  lemma {:induction false} DigitsLead(n: nat)
    ensures |Digits(n)| > 1 ==> Digits(n)[0] != '0'
    decreases n
  {
    if n >= 10 {
      DigitsLead(n / 10);
      assert Digits(n)[0] == Digits(n / 10)[0];
    }
  }

  /** How `fmt.Sprint` output is read back: an optional minus sign, then a
      non-empty run of digits. */
  function ReadDecimal(s: string): Option<int> {
    if |s| > 0 && s[0] == '-' then
      if |s| > 1 && AllDigits(s[1..]) then Some(-(DigitsValue(s[1..]) as int)) else None
    else if |s| > 0 && AllDigits(s) then Some(DigitsValue(s) as int)
    else None
  }

  /** Reading back a rendered integer gives the integer. */
  lemma DecimalRoundTrip(n: int)
    ensures ReadDecimal(Decimal(n)) == Some(n)
  {
    if n < 0 {
      DigitsRoundTrip(-n);
      assert Decimal(n)[1..] == Digits(-n);
    } else {
      DigitsRoundTrip(n);
    }
  }

  /** Distinct integers render to distinct numerals. */
  lemma DecimalInjective(a: int, b: int)
    requires Decimal(a) == Decimal(b)
    ensures a == b
  {
    DecimalRoundTrip(a);
    DecimalRoundTrip(b);
  }

  /** A numeral is made of digits and at most a leading minus sign only. */
  lemma DecimalAlphabet(n: int)
    ensures forall i :: 0 <= i < |Decimal(n)| ==> IsDigit(Decimal(n)[i]) || Decimal(n)[i] == '-'
  {
    if n < 0 {
      DigitsRoundTrip(-n);
      SignedAlphabet(Digits(-n));
    } else {
      DigitsRoundTrip(n);
    }
  }

  lemma SignedAlphabet(d: string)
    requires AllDigits(d)
    ensures forall i :: 0 <= i < |"-" + d| ==> IsDigit(("-" + d)[i]) || ("-" + d)[i] == '-'
  {
    forall i | 1 <= i < |"-" + d|
      ensures ("-" + d)[i] == d[i - 1]
    {
    }
  }

  /* ---------------------------------------------------------------------- */
  /* Keys of the form prefix + separator + suffix                            */
  /* ---------------------------------------------------------------------- */

  lemma SeparatorAt(a: string, d: string, sep: char)
    ensures (a + [sep] + d)[|a|] == sep
  {
  }

  lemma CharInSuffix(a: string, d: string, sep: char, n: nat)
    ensures n <= |a| || n >= |a| + 1 + |d| || (a + [sep] + d)[n] in d
  {
    if |a| < n < |a| + 1 + |d| {
      assert (a + [sep] + d)[n] == d[n - |a| - 1];
    }
  }

  /** When the suffix can never contain the separator, `prefix + [sep] +
      suffix` determines both parts: the separator is the last one. */
  lemma SeparatedInjective(a1: string, d1: string, a2: string, d2: string, sep: char)
    requires sep !in d1 && sep !in d2
    requires a1 + [sep] + d1 == a2 + [sep] + d2
    ensures a1 == a2 && d1 == d2
  {
    var key := a1 + [sep] + d1;
    SeparatorAt(a1, d1, sep);
    SeparatorAt(a2, d2, sep);
    CharInSuffix(a1, d1, sep, |a2|);
    CharInSuffix(a2, d2, sep, |a1|);
    assert |a1| == |a2|;
    assert a1 == key[..|a1|] == a2;
    assert d1 == key[|a1| + 1..] == d2;
  }

  /* ---------------------------------------------------------------------- */
  /* Splitting at the first occurrence of a character                        */
  /* ---------------------------------------------------------------------- */

  /** The text before the first `c` in `s` and the text after it. */
  function SplitFirst(s: string, c: char): (r: Option<(string, string)>)
    ensures r.None? <==> c !in s
    ensures r.Some? ==> s == r.value.0 + [c] + r.value.1 && c !in r.value.0
    decreases |s|
  {
    if |s| == 0 then None
    else if s[0] == c then Some(([], s[1..]))
    else
      match SplitFirst(s[1..], c)
      case None => None
      case Some((a, b)) => Some(([s[0]] + a, b))
  }

  /** Splitting `a + [c] + b` at its first `c` gives back `a` and `b` when
      `a` holds no `c`. */
  lemma {:induction false} SplitFirstOf(a: string, c: char, b: string)
    requires c !in a
    ensures SplitFirst(a + [c] + b, c) == Some((a, b))
    decreases |a|
  {
    var s := a + [c] + b;
    if |a| > 0 {
      SplitFirstOf(a[1..], c, b);
      assert s[1..] == a[1..] + [c] + b;
      assert [a[0]] + a[1..] == a;
    } else {
      assert s[1..] == b;
    }
  }
}

=== FILE: wrappers.dfy ===
/** The optional-value datatype shared by the codec, the store and the mirror. */
module Wrappers {

  datatype Option<+T> = None | Some(value: T)
}
